=== FILE: README.md ===
# Alfred-Workflow core in Dafny

This project models the core of the Python 3 port of Alfred-Workflow, a
library for writing Alfred workflows.

- **The fuzzy filter** (`Workflow.filter`, `_filter_item`, `_search_for_query`
  in `workflow/old_workflow.py`).
  - A query is split into space-separated words.
  - Every word is classified against each item's search key by seven ordered
    match rules, each switched on by a bit of `match_on`: STARTSWITH, CAPITALS,
    ATOM, INITIALS_STARTSWITH, INITIALS_CONTAIN, SUBSTRING and ALLCHARS.
  - An item is kept only when every word matches; the word scores are summed.
  - The rows are sorted on `(100 / score, key.lower(), score)`, cut at
    `min_score` and `max_results`, and returned as items or as
    `(item, score, rule)` triples.
  - The compiled ALLCHARS patterns live in a cache that only grows.
  - The flags, the `INITIALS` alphabet and the atom splitter come from
    `workflow/constants.py`.
- **`Version`** (`workflow/version.py`).
  - Parsing "mostly semantic" version strings: an optional `v`, up to three
    dotted numbers, a `-suffix` and a `+build`.
  - Rendering them back, and the comparison operators.
  - `build_api_url`, and `latest_download`, which sorts a list of downloads in
    place and picks the newest one that is eligible.
- **`Download`** (`workflow/update.py`).
  - The constructor, `alfred_version`, and the `dict` / `from_dict` pair.
  - `__eq__` and `__lt__`.
  - `from_releases`, which keeps the workflow files of releases with a valid
    tag and no duplicated extension, newest first.
- **The feedback builders.**
  - The JSON objects of `Item`, `Modifier`, `Variables` and `Workflow`, as
    maps from keys to Python values.
  - Their variable tables and `rerun`.
  - The item list.
  - The session-scoped cache names.
- **`SerializerManager`** (`workflow/serializers.py`), a registry of
  serializers by name that is updated in place.

## How the model is organised

There is one module per source file, plus a few shared helper modules:

- `Wrappers`: `Option`, and `Result` carrying a Python exception name.
- `Text`: characters, strings, `split`, `strip` and Python's `str` ordering.
- `Sorting`: Python's stable `list.sort` over a comparison.
- `Values`: the Python values that go into the JSON objects.

The classes whose fields the source updates in place are Dafny classes:

- `OldWorkflow.Workflow`
- `Serializers.SerializerManager`
- `Modifiers.Modifier`
- `Items.Item`
- `Workflows.Workflow`

Each method states its new state in full. Pure computations, such as
`_filter_item`, `Version` parsing and comparison and the `obj` properties,
are functions.

The loops of `filter`, `_parse`, `from_releases` and `latest_download` are
methods. Each is proved equal to a specification function, and the
properties are proved about those functions.

The in-place `sort` calls are modelled as one in-place insertion sort on an
array, `Sorting.SortInPlace`. It is proved equal to `Sorting.SortSeq`, and
that function is proved to permute its input. It is also proved to sort its
input whenever the comparison is a strict weak order on the elements.

The following are function-valued parameters, because their code is not
part of this model:

- `fold_to_ascii`;
- `util.match_workflow`;
- `json.dumps` and `json.loads`.

## Model

| member | source | states |
|---|---|---|
| Constants.FlagsAreDistinctPowersOfTwo | workflow/constants.py:18-33 | the seven rule flags are 2^0 … 2^6, hence distinct single bits |
| Constants.CombinedFlags | workflow/constants.py:29-35 | `MATCH_INITIALS` is the OR of the two initials flags and `MATCH_ALL` the OR of all seven |
| Constants.CombinedFlagBits | workflow/constants.py:29-35 | bit k of `MATCH_ALL` is set exactly for k < 7; bit k of `MATCH_INITIALS` exactly for k = 3, 4 |
| Constants.InitialsAlphabet | workflow/constants.py:11 | a character is in `INITIALS` iff it is an ASCII capital or an ASCII digit |
| Constants.SplitOnDelimiters | workflow/constants.py:14 | one atom more than there are non-alphanumeric characters, every atom ASCII-alphanumeric, the atoms together giving the alphanumeric characters in order, and a delimiter-free string is its own single atom |
| Constants.SplitOnDelimitersStep | workflow/constants.py:14 | the first delimiter ends the first atom and the rest is split on its own, which with the delimiter-free case fixes every atom |
| Constants.AdjacentDelimiters | workflow/constants.py:14 | two delimiters in a row leave an empty atom between them |
| FilterRules.FlagIsPriorityBit | workflow/constants.py:18-33 | each rule's flag is the bit of its position in the rule order, and distinct rules have distinct positions |
| FilterRules.AllRulesEnabledByMatchAll | workflow/constants.py:35 | `MATCH_ALL` enables every rule |
| FilterRules.NonEmptyAtoms | workflow/old_workflow.py:1042 | the `if s` filter keeps exactly the non-empty atoms |
| FilterRules.NonEmptyAtomsAppend | workflow/old_workflow.py:1042 | the filter works atom by atom, so it keeps order and repetitions |
| FilterRules.Initials | workflow/old_workflow.py:1042 | the initials are the first letters of the non-empty atoms, one per atom, in order |
| FilterRules.MatchFrom | workflow/old_workflow.py:1096-1101 | the lazy `.*?c1.*?c2…` engine ends a match at least one character per pattern character later, and within the key |
| FilterRules.SearchFrom | workflow/old_workflow.py:1081 | a search result starts at or after the start position and spans at least the pattern's length |
| FilterRules.MatchFromSound | workflow/old_workflow.py:1096-1101 | a match of the lazy engine lies along increasing positions that spell the word ignoring case, and ends right after the last one |
| FilterRules.MatchFromComplete | workflow/old_workflow.py:1096-1101 | whenever such positions exist the engine matches, ending no later than they do |
| FilterRules.MatchFromFailsLater | workflow/old_workflow.py:1081 | a match that fails from one start fails from every later start |
| FilterRules.SearchAllChars | workflow/old_workflow.py:1079-1086 | the ALLCHARS search succeeds iff the word is a case-insensitive subsequence of the key; the match starts at 0 and ends at the earliest end of such a subsequence |
| FilterRules.FirstSixRulesSpec | workflow/old_workflow.py:1019-1075 | the first six rules return the first enabled rule that holds, with its score, or nothing when none holds |
| FilterRules.MatchWordIsFirstHoldingRule | workflow/old_workflow.py:999-1089 | `_filter_item` reports a rule iff the pre-filter passes and some enabled rule holds; it is then the first enabled rule that holds, with that rule's score; otherwise `(0, None)` |
| FilterRules.PreFilterRejects | workflow/old_workflow.py:1013-1017 | a word character missing from the lower-cased, possibly folded key gives `(0, None)` |
| FilterRules.AllCharsScoreBounds | workflow/old_workflow.py:1083-1084 | the ALLCHARS score is `100 / (end + 1)` and lies between `100 / (len(key) + 1)` and `100 / (len(word) + 1)` |
| FilterRules.NegativeStartsWithScore | workflow/old_workflow.py:1020-1023 | a 201-character key starting with a one-letter word scores `100 - 201 = -101` under STARTSWITH |
| OldWorkflow.Words | workflow/old_workflow.py:959 | one stripped word per space-separated piece of the query, one more than there are spaces, and no word holds a space |
| OldWorkflow.ScanWordsSkip | workflow/old_workflow.py:963-974 | the inner loop skips an item iff some non-empty word scores 0 |
| OldWorkflow.ScanWordsScore | workflow/old_workflow.py:971 | the accumulated score is the sum of the word scores |
| OldWorkflow.ScanWordsRule | workflow/old_workflow.py:966-967 | the recorded rule is the rule of the last non-empty word |
| OldWorkflow.ScanWordsSpec | workflow/old_workflow.py:956-974 | the three facts about the inner loop together |
| OldWorkflow.ScoreItem | workflow/old_workflow.py:960-981 | a kept row carries its own item and a non-zero score |
| OldWorkflow.ScoreItemSpec | workflow/old_workflow.py:956-981 | an item is kept iff its stripped key is non-empty, every non-empty word matches and the sum is non-zero; the row holds that sum, the lower-cased key and the last word's rule |
| OldWorkflow.CandidatesSound | workflow/old_workflow.py:976-981 | every collected row is the row of some item |
| OldWorkflow.CandidatesComplete | workflow/old_workflow.py:976-981 | every kept item has its row among those collected |
| OldWorkflow.KeyLessTotal | workflow/old_workflow.py:980 | any two sort keys are ordered one way or the other, or equal |
| OldWorkflow.KeyLessTransitive | workflow/old_workflow.py:980 | the tuple comparison of the sort keys is transitive |
| OldWorkflow.KeyLessIsStrictWeakOrder | workflow/old_workflow.py:984 | the sort-key comparison is a strict weak order, so the sort is well defined on any rows |
| OldWorkflow.SortRows | workflow/old_workflow.py:984 | sorting the collected rows in place leaves them in the stable sort on the keys, reversed when `ascending` |
| OldWorkflow.AboveMinScore | workflow/old_workflow.py:987-988 | exactly the rows with score above `min_score` are kept |
| OldWorkflow.PyPrefix | workflow/old_workflow.py:991 | Python's `s[:n]`, including a negative `n` counting from the end: a prefix of the stated length |
| OldWorkflow.BlankQueryReturnsItems | workflow/old_workflow.py:941-948 | an all-whitespace (or empty) query returns `items` unchanged |
| OldWorkflow.RankedRowsAreCandidates | workflow/old_workflow.py:983-991 | every returned row is a collected row, above `min_score` when that is set |
| OldWorkflow.RankedRowsAreKeptItems | workflow/old_workflow.py:956-991 | every returned row belongs to an input item that the per-item rule keeps |
| OldWorkflow.RankedKeepsEveryMatch | workflow/old_workflow.py:983-985 | without `min_score` and `max_results` the result is a permutation of the collected rows |
| OldWorkflow.AboveMinScoreSorted | workflow/old_workflow.py:987-988 | the `min_score` filter keeps the order sorted |
| OldWorkflow.RankedIsSorted | workflow/old_workflow.py:984 | the result is sorted on the keys, in reverse when `ascending` |
| OldWorkflow.RankedBestFirst | workflow/old_workflow.py:976-985 | with `ascending=False` positive scores come highest first, negative ones before all positive ones, and equal scores in alphabetical order of the key |
| OldWorkflow.MaxResultsBound | workflow/old_workflow.py:990-991 | a positive `max_results` caps the count, 0 keeps all, and the kept rows are the first ones |
| OldWorkflow.Workflow.constructor | workflow/old_workflow.py:141 | the pattern cache starts empty |
| OldWorkflow.Workflow.SearchForQuery | workflow/old_workflow.py:1091-1104 | returns the pattern of the word, cached or newly compiled; the cache gains that entry and keeps every other one |
| OldWorkflow.Workflow.FilterItem | workflow/old_workflow.py:999-1089 | `_filter_item` with the cached pattern equals the rule chain `MatchWord`; the cache only grows |
| OldWorkflow.Workflow.ScanKey | workflow/old_workflow.py:963-971 | the word loop computes `skip`, `score` and `rule` as `ScanWords` states them |
| OldWorkflow.Workflow.CollectRows | workflow/old_workflow.py:956-981 | the item loop collects the rows of the kept items, in item order |
| OldWorkflow.Workflow.Filter | workflow/old_workflow.py:840-997 | `filter` returns exactly `FilterSpec`, whose properties are the lemmas above; the cache only grows |
| Sorting.SortSeqPermutes | workflow/old_workflow.py:984 | sorting returns the same elements, each as often |
| Sorting.SortSeqSorted | workflow/old_workflow.py:984 | sorting by a comparison that is a strict weak order on the elements yields a sorted list |
| Sorting.SortInPlace | workflow/version.py:241 | the in-place sort leaves the array holding the stable sort of its old contents |
| Versions.ToPart | workflow/version.py:88-90 | an all-digit part becomes a number, any other part stays text |
| Versions.ParseDotted | workflow/version.py:83-91 | one part per dot plus one, and each part is the `int` or the text of the matching dot-separated piece |
| Versions.NumberPrefix | workflow/version.py:34 | the longest run of digits and dots at the start |
| Versions.FirstLine | workflow/version.py:34 | `(.+)?` captures up to the first newline |
| Versions.SplitBuild | workflow/version.py:74-77 | the text splits at its first `+` |
| Versions.ParseTail | workflow/version.py:72-81 | the build is what follows the first `+`; the rest must be empty or start with `-`, which is dropped, else `ValueError` |
| Versions.NumberFields | workflow/version.py:63-70 | succeeds exactly when there are at most three parts, all numbers; then major, with minor and patch defaulting to 0; otherwise `ValueError` |
| Versions.Parse | workflow/version.py:36-81 | a falsy string, or one not starting with a digit after one optional `v`, raises `ValueError`; otherwise it succeeds exactly when the number step and the suffix step do, with their fields; every error is a `ValueError` |
| Versions.ParseDigits | workflow/version.py:36-81 | any run of digits, leading zeros included, parses as the major number with minor and patch 0 and no suffix or build |
| Versions.ParseVersion | workflow/version.py:53-81 | the field-by-field `_parse` computes exactly `Parse` |
| Versions.PopNumbers | workflow/version.py:63-70 | the `pop(0)` steps compute exactly `NumberFields` |
| Versions.ParseSuffix | workflow/version.py:72-81 | the suffix step computes exactly `ParseTail` |
| Versions.ParseWellFormed | workflow/version.py:72-81 | a parsed suffix has no `+`, and neither suffix nor build has a newline |
| Versions.ParseToString | workflow/version.py:154-161 | re-parsing `str(v)` gives back every field of a well-formed version, build included |
| Versions.RoundTrip | workflow/version.py:53-81 | `Version(str(Version(s)))` equals `Version(s)` |
| Versions.LessStrict | workflow/version.py:98-126 | `<` is irreflexive and asymmetric |
| Versions.PartsLessAsymmetric | workflow/version.py:115-124 | the pairwise suffix comparison never holds both ways |
| Versions.ComparisonsAgree | workflow/version.py:128-152 | equal versions are neither `<` nor `>`, and `>`, `<=`, `>=` agree with `<` |
| Versions.LessByNumbers | workflow/version.py:102-110 | without suffixes `<` is the number order, total up to `==`; a suffixed version is below the unsuffixed one with the same numbers |
| Versions.LessCycle | workflow/version.py:112-124 | `<` is not transitive once suffix parts mix numbers and text: `1.0.0-10 < 1.0.0-2a < 1.0.0-9 < 1.0.0-10` |
| Versions.StripsOneV | workflow/version.py:55-58 | a leading `v` changes nothing but the error message |
| Versions.DocExampleV111 | workflow/version.py:18-20 | `Version('v1.1.1').tuple == (1, 1, 1, '')` |
| Versions.DocExample20 | workflow/version.py:22-24 | `Version('2.0').tuple == (2, 0, 0, '')` |
| Versions.DocExample31Beta | workflow/version.py:26-27 | `Version('3.1-beta').tuple == (3, 1, 0, 'beta')` |
| Versions.DocExampleGreater | workflow/version.py:29-30 | `Version('1.0.1') > Version('0.0.1')` |
| Versions.BuildApiUrl | workflow/version.py:194-207 | the releases URL iff the slug has exactly one `/`, `ValueError` otherwise |
| Updates.NewDownload | workflow/update.py:133-150 | the fields as given; a string version is parsed, and its `ValueError` propagates |
| Updates.ParseZero | workflow/update.py:157 | `Version("0")` is 0.0.0 with no suffix or build |
| Updates.AlfredVersion | workflow/update.py:152-158 | `Version("0")` when the file name does not match or has no Alfred-version group, else that group parsed |
| Updates.ToDict | workflow/update.py:160-168 | exactly the four keys, with the version rendered by `str` |
| Updates.VersionValue | workflow/update.py:69 | a string value is parsed as a version |
| Updates.FromFields | workflow/update.py:66-71 | the download is built iff the three other values have the right types |
| Updates.FromDict | workflow/update.py:63-71 | success needs all four keys, with the fields read from them and the version parsed from its string; a missing `url` is a `KeyError` |
| Updates.FromDictToDict | workflow/update.py:63-71 | `from_dict(d.dict)` gives back `d` for every download with a parsed version |
| Updates.ToDictInjective | workflow/update.py:185-194 | two such downloads with the same `dict` are equal, and the one read back is `==` to the original |
| Updates.DownloadLessStrict | workflow/update.py:200-204 | `__lt__` is irreflexive and asymmetric |
| Updates.DownloadLessLexicographic | workflow/update.py:200-204 | between unsuffixed versions, `<` orders by version numbers, then by Alfred version numbers |
| Updates.ReleasesWeakOrder | workflow/update.py:200-204 | on such downloads `<` is a strict weak order |
| Updates.AssetDownloads | workflow/update.py:102-114 | at most one download per asset |
| Updates.AssetDownloadsMembers | workflow/update.py:103-114 | a release's downloads are exactly its assets whose file name is a workflow file, with the release's version and prerelease flag |
| Updates.CollectedMembers | workflow/update.py:93-128 | a download is collected iff some release contributes it |
| Updates.ReleaseDownloadsMembers | workflow/update.py:94-128 | a release contributes only when its tag parses and no extension repeats, and then all its workflow assets |
| Updates.FromReleasesContents | workflow/update.py:73-131 | the result is a permutation of what was collected, and contains exactly the downloads some release offers |
| Updates.FromReleasesSorted | workflow/update.py:130-131 | the result is sorted newest first whenever `<` is a strict weak order on the downloads |
| Updates.ScanAssets | workflow/update.py:102-114 | the asset loop yields the workflow downloads and, for every matched extension, its number of occurrences |
| Updates.NoDupes | workflow/update.py:116-125 | the release is valid iff no extension count exceeds one |
| Updates.AmbiguousByCounts | workflow/update.py:116-128 | a count above one is the same as a repeated extension |
| Updates.FromReleases | workflow/update.py:73-131 | the loop over releases followed by the in-place sort computes exactly `FromReleasesSpec` |
| Updates.FirstEligible | workflow/version.py:242-258 | the first download that is not an unwanted prerelease and whose Alfred version is not above the limit, or none when no download qualifies |
| Updates.AlfredLimit | workflow/version.py:236-239 | no limit for an empty Alfred version, else that version parsed, with its `ValueError` |
| Updates.LatestDownload | workflow/version.py:234-258 | an unparsable Alfred version raises and leaves the list alone; otherwise the list is sorted newest first in place and the first eligible download returned |
| Updates.FirstEligibleIn | workflow/version.py:242-258 | the loop returns the first eligible download, or none |
| Serializers.InsertName | workflow/serializers.py:80 | inserting a name keeps the list strictly ascending and adds just that name |
| Serializers.AscendingUnique | workflow/serializers.py:80 | a strictly ascending list is determined by its elements |
| Serializers.SerializerManager.constructor | workflow/serializers.py:22-24 | the table starts empty |
| Serializers.SerializerManager.Register | workflow/serializers.py:26-44 | an object without `load` or `dump` raises `AttributeError` with no change; otherwise the entry is set, replacing any earlier one |
| Serializers.SerializerManager.SerializerFor | workflow/serializers.py:46-55 | the registered object iff the name is registered, else `None` |
| Serializers.SerializerManager.Unregister | workflow/serializers.py:57-75 | an unknown name raises `ValueError` with no change; a known one returns its object and only that entry goes |
| Serializers.SerializerManager.Names | workflow/serializers.py:77-80 | exactly the registered names, strictly ascending |
| Modifiers.IconTypeValue | workflow/modifier.py:6-12 | an icon type is put into the object as its enum member |
| Modifiers.IconObj | workflow/modifier.py:117-131 | `path` iff an icon is set, `type` iff an icon type is set, nothing else |
| Modifiers.Modifier.constructor | workflow/modifier.py:53-61 | the eight given fields, `config` and `variables` included |
| Modifiers.Modifier.SetVar | workflow/modifier.py:63-71 | afterwards `getvar(name)` is the value and every other variable is unchanged |
| Modifiers.Modifier.GetVar | workflow/modifier.py:73-84 | the variable's value, or the default when it is unset |
| Modifiers.Modifier.Obj | workflow/modifier.py:86-115 | `subtitle`, `arg` and `valid` iff set; `variables` and `config` iff non-empty; `icon` iff an icon or icon type is set; no other key |
| Modifiers.DefaultModifierObj | workflow/modifier.py:56-58 | a modifier with the defaults `valid=True` and `icontype=FILEPATH` always carries `valid` and an `icon` of type `FILEPATH` |
| Items.TextObj | workflow/item.py:156-170 | `largetype` iff a large text, `copy` iff a copy text; empty iff neither is set |
| Items.ItemIconObj | workflow/item.py:140-154 | `path` iff an icon, `type` iff an icon type; empty iff neither is set |
| Items.Item.constructor | workflow/item.py:19-35 | the sixteen given fields, `modifiers`, `config` and `variables` included |
| Items.Item.SetVar | workflow/item.py:37-45 | afterwards `getvar(name)` is the value and every other variable is unchanged |
| Items.Item.GetVar | workflow/item.py:47-58 | the variable's value, or the default when it is unset |
| Items.Item.AddModifier | workflow/item.py:60-85 | a new modifier with a copy of the item's variables is stored under its key, replacing any earlier one; the other modifiers stay |
| Items.Item.Mods | workflow/item.py:172-185 | one entry per modifier key, holding that modifier's `obj`; empty iff there are no modifiers |
| Items.Item.Obj | workflow/item.py:87-138 | `title`, `subtitle` and `valid` are always present; every key is one of the fourteen item keys, holding that key's entry |
| Items.ItemObjOptional | workflow/item.py:100-107 | `arg`, `autocomplete` and `match` appear iff set |
| Items.ItemObjOptionalMore | workflow/item.py:109-116 | `uid`, `type` (from the item type) and `quicklookurl` appear iff set |
| Items.ItemObjContainers | workflow/item.py:118-131 | `variables` and `config` appear iff non-empty; `text` iff a large or copy text is set; `icon` iff an icon or icon type is set |
| Items.ItemObjMods | workflow/item.py:133-136 | `mods` appears iff there are modifiers, mapping each key to its modifier's `obj` |
| WorkflowVariables.Inner | workflow/variables.py:38-49 | `variables` iff the mapping is non-empty, `config` iff non-empty, `arg` iff not `None`, nothing else |
| WorkflowVariables.Obj | workflow/variables.py:51 | a single-key mapping under `alfredworkflow` |
| WorkflowVariables.FromObjObj | workflow/variables.py:35-51 | `obj` loses nothing: the variables, `config` and `arg` can be read back |
| WorkflowVariables.ToStr | workflow/variables.py:53-66 | `""` with nothing set and a falsy `arg`; a string `arg` verbatim when it is all there is; the JSON of `obj` otherwise |
| WorkflowVariables.ToStrDecodes | workflow/variables.py:66 | with variables or config set, decoding the printed text recovers the object exactly |
| Workflows.SessionPrefix | workflow/workflow.py:301-304 | the prefix is `_wfsess-`, then the session id, then a final `-` |
| Workflows.SessionName | workflow/workflow.py:306-308 | the session prefix followed by the name itself |
| Workflows.CurrentSessionFiles | workflow/workflow.py:375-380 | a name of the current session is a session file, and is kept unless `current` is set |
| Workflows.OtherSessionFiles | workflow/workflow.py:375-380 | a name made for another session id of the same length is cleared in both modes |
| Workflows.ItemObjs | workflow/workflow.py:392-394 | one item object per item, in order |
| Workflows.Workflow.constructor | workflow/workflow.py:44-56 | empty items, zero `rerun`; a session id from the environment is stored and set as a variable |
| Workflows.Workflow.SetVar | workflow/workflow.py:204-227 | afterwards `getvar(name)` is the value and every other variable is unchanged |
| Workflows.Workflow.GetVar | workflow/workflow.py:229-240 | the variable's value, or the default when it is unset |
| Workflows.Workflow.SetRerun | workflow/workflow.py:171-183 | the getter returns what was set |
| Workflows.Workflow.AddItem | workflow/workflow.py:242-299 | exactly one new item appended at the end, with the given fields and a copy of the workflow variables |
| Workflows.Workflow.Obj | workflow/workflow.py:384-401 | `items` always, in insertion order; `variables` iff non-empty; `rerun` iff non-zero; nothing else |
| Workflows.Workflow.WarnEmpty | workflow/workflow.py:403-425 | with no items, exactly one invalid warning item is added (icon `ICON_WARNING` unless one is given); otherwise nothing changes |
| Workflows.Workflow.SessionId | workflow/workflow.py:185-202 | a stored id is returned unchanged; otherwise the fresh id is stored, set as a variable and returned |
| Workflows.Workflow.MkSessionName | workflow/workflow.py:306-308 | the session name of the (possibly new) session id; a new id is stored and set as the `_WF_SESSION_ID` variable |

## Left out

- Lower-casing is ASCII-only. Python's Unicode `str.lower` and its
  case-insensitive regex matching beyond ASCII are not modelled.
- `fold_to_ascii`, `util.match_workflow` and `json.dumps`/`json.loads` are
  function parameters, since their code is not part of this model.
  - `isascii` is "every code point below 128".
  - The settings override of `fold_diacritics` (workflow/old_workflow.py:951-952)
    comes in as the value in force, because settings persistence is not part of
    this model.
- The regex `.` does not match a newline. The ALLCHARS model lets it match any
  character, so it is exact only for keys without newlines.
- When two sort keys are exactly equal, Python goes on to compare the items
  themselves. The model keeps their input order instead.
- Python's sort is Timsort; the model uses a stable insertion sort. The two
  agree whenever the comparison is a strict weak order. Version `<` is not
  one in general (`Versions.LessCycle`), and there the order of the model's
  result may differ from Python's.
- `Updates.FromReleasesSorted`: sortedness is proved only under a strict weak
  order, for the reason just given.
- `Versions.Parse`: an empty dotted part (`1..2`, `v2.`) gives a `ValueError`.
  Python stores `''` in that field. It raises `TypeError` only when a `<`
  reaches that field, and `==`, `str` and comparisons settled by an earlier
  field all work.
- `Updates.FromReleases`: for the reason just given, it drops releases whose
  tag has an empty dotted part (such as `v2.`), which Python keeps.
- Comparing a `Version` with a non-`Version`, which raises `ValueError`, is
  not modelled: the model's operands are always versions.
- `Version.vstr` is not stored, since nothing in the core reads it back.
- Non-ASCII digits, which Python's `isdigit` accepts, are not modelled.
- `Updates.AlfredVersion`: when the Alfred-version group does not parse, the
  model gives `Version("0")`, where Python would raise `ValueError`.
- `Updates.FromDict`: a value of the wrong type is reported as `TypeError`.
  Python stores a wrongly typed `url`, `filename` or `prerelease` unchecked,
  and passes a non-string version through `str` before parsing it.
- `from_releases` decoding the JSON text, the `release.get("assets", [])`
  default and a missing download URL are not modelled. The model starts
  from releases that are already decoded.
- `Updates.LatestDownload`: version.py neither defines nor imports `wf`.
  Every pass of the loop at workflow/version.py:243-256 calls
  `wf().logger.debug(...)`. As written, a non-empty list is therefore
  sorted and then a `NameError` is raised. The model treats the logging as
  a no-op and returns the first eligible download.
- `version.py` uses `RELEASES_BASE` without defining it. The model uses the
  constant of workflow/update.py:35.
- `workflow/old_workflow.py` binds none of the module-level names its filter
  and its import-time setup use. Its imports (lines 22-49) do not include
  `workflow.constants`, so the following are unbound: `MATCH_*`,
  `INITIALS` and `split_on_delimiters` (defined at workflow/constants.py:11-35),
  `SerializerManager` (workflow/serializers.py:9, used at line 58) and
  `isascii` (defined nowhere). As written, the module raises `NameError` when
  it is imported. The model binds the first three to `Constants`, the manager
  to `Serializers.SerializerManager`, and reads `isascii` as every code point
  below 128.
- `WorkflowVariables.ToStr`: workflow/variables.py imports nothing, so
  `json.dumps(self.obj)` at line 66 raises `NameError` on the JSON branch.
  That branch is taken when the mapping or `config` is non-empty, or when `arg`
  is truthy and not a string. The model's `dumps` parameter stands for the
  intended `json.dumps`, and `WorkflowVariables.ToStrDecodes` is about that
  intended output.
- `workflow.py` never sets `_items` and uses `item_class` and `ICON_WARNING`
  without defining or importing them. The model starts `_items` empty, uses
  `Items.Item`, and takes `ICON_WARNING` from workflow/icons.py:39.
- Variable, `config` and `arg` values are modelled as `Values.Value`. The
  type hints say strings, and the code stores whatever it is given.
- Dictionary key order (insertion order in Python) is not modelled: JSON
  objects are maps.
- `Workflows.Workflow.SessionId`: `uuid4().hex` is a parameter, and an unset
  session id is the empty string.
- The environment lookup of `_WF_SESSION_ID` and `alfred_version` is also a
  parameter.
- Not modelled, because they are file-system, logging, network or process
  work:
  - `setvar(..., persist=True)` writing `info.plist`;
  - the logger calls;
  - `retrieve_download`, `get_downloads`, `send_feedback`, `clear_cache`.
- The serializer classes themselves are not modelled. A serializer is a value
  with an identity and its attribute names.

=== FILE: constants.dfy ===
/** The `MATCH_*` rule flags of `Workflow.filter`, the `INITIALS` alphabet of
    the CAPITALS rule and the atom splitter (workflow/constants.py). */
module Constants {
  import opened Text

  /** `string.ascii_uppercase + string.digits`. */
  const INITIALS: string := "ABCDEFGHIJKLMNOPQRSTUVWXYZ0123456789"

  const MATCH_STARTSWITH: int := 1
  const MATCH_CAPITALS: int := 2
  const MATCH_ATOM: int := 4
  const MATCH_INITIALS_STARTSWITH: int := 8
  const MATCH_INITIALS_CONTAIN: int := 16
  const MATCH_INITIALS: int := 24
  const MATCH_SUBSTRING: int := 32
  const MATCH_ALLCHARS: int := 64
  const MATCH_ALL: int := 127

  function Pow2(k: nat): (p: nat)
    ensures p >= 1
  {
    if k == 0 then 1 else 2 * Pow2(k - 1)
  }

  /** Python's `mask & 2**k != 0`. For a negative `mask` Python's `&` works
      on the infinite two's complement, which is what floor division
      (Dafny's `/` for a positive divisor) followed by `% 2` reads. */
  predicate BitSet(mask: int, k: nat) {
    (mask / Pow2(k)) % 2 == 1
  }

  lemma FlagsAreDistinctPowersOfTwo()
    ensures MATCH_STARTSWITH == Pow2(0) && MATCH_CAPITALS == Pow2(1)
    ensures MATCH_ATOM == Pow2(2) && MATCH_INITIALS_STARTSWITH == Pow2(3)
    ensures MATCH_INITIALS_CONTAIN == Pow2(4) && MATCH_SUBSTRING == Pow2(5)
    ensures MATCH_ALLCHARS == Pow2(6)
  {}

  lemma CombinedFlags()
    ensures MATCH_INITIALS == (MATCH_INITIALS_STARTSWITH as bv8 | MATCH_INITIALS_CONTAIN as bv8) as int
    ensures MATCH_ALL == (MATCH_STARTSWITH as bv8 | MATCH_CAPITALS as bv8 | MATCH_ATOM as bv8
                          | MATCH_INITIALS_STARTSWITH as bv8 | MATCH_INITIALS_CONTAIN as bv8
                          | MATCH_SUBSTRING as bv8 | MATCH_ALLCHARS as bv8) as int
  {}

  /** `MATCH_ALL` switches every one of the seven rules on and nothing else;
      `MATCH_INITIALS` switches on exactly the two initials rules. */
  lemma CombinedFlagBits(k: nat)
    ensures BitSet(MATCH_ALL, k) <==> k < 7
    ensures BitSet(MATCH_INITIALS, k) <==> k == 3 || k == 4
  {
    if k >= 7 {
      Pow2Split(k, 7);
      assert Pow2(7) == 128;
      SmallQuotient(MATCH_ALL, Pow2(k));
      SmallQuotient(MATCH_INITIALS, Pow2(k));
    } else if k == 0 {
    } else if k == 1 {
    } else if k == 2 {
      assert Pow2(2) == 4;
    } else if k == 3 {
      assert Pow2(3) == 8;
    } else if k == 4 {
      assert Pow2(4) == 16;
    } else if k == 5 {
      assert Pow2(5) == 32;
    } else {
      assert Pow2(6) == 64;
    }
  }

  lemma MulAtLeast(p: int, q: int)
    requires p > 0
    ensures q >= 1 ==> p * q >= p
    ensures q < 0 ==> p * q <= -p
  {}

  lemma SmallQuotient(a: int, p: int)
    requires 0 <= a < p
    ensures a / p == 0
  {
    var q, r := a / p, a % p;
    assert a == p * q + r && 0 <= r < p;
    MulAtLeast(p, q);
  }

  lemma {:induction false} Pow2Split(k: nat, j: nat)
    requires j <= k
    ensures Pow2(k) == Pow2(j) * Pow2(k - j)
  {
    if j > 0 { Pow2Split(k - 1, j - 1); }
  }

  lemma InitialsAlphabet(c: char)
    ensures c in INITIALS <==> IsUpper(c) || IsDigit(c)
  {
    if IsUpper(c) { assert INITIALS[c as int - 'A' as int] == c; }
    if IsDigit(c) { assert INITIALS[26 + c as int - '0' as int] == c; }
  }

  predicate IsDelimiter(c: char) { !IsAsciiAlnum(c) }

  /** A string without delimiters is a single atom. */
  lemma NoDelimiterOneAtom(s: string)
    ensures (forall i :: 0 <= i < |s| ==> !IsDelimiter(s[i])) ==> SplitWhere(s, IsDelimiter) == [s]
  {
    if forall i :: 0 <= i < |s| ==> !IsDelimiter(s[i]) {
      SplitWhereNone(s, IsDelimiter);
    }
  }

  /** `re.compile('[^a-zA-Z0-9]').split`: one atom more than there are
      delimiter characters, every atom ASCII-alphanumeric, and the atoms
      together hold exactly the alphanumeric characters of `s`, in order;
      a string without delimiters is its own single atom
      (`SplitOnDelimitersStep` says where the atoms break). */
  function SplitOnDelimiters(s: string): (atoms: seq<string>)
    ensures |atoms| == CountWhere(s, IsDelimiter) + 1
    ensures forall a, c :: a in atoms && c in a ==> IsAsciiAlnum(c)
    ensures Concat(atoms) == KeepWhere(s, IsAsciiAlnum)
    ensures (forall i :: 0 <= i < |s| ==> !IsDelimiter(s[i])) ==> atoms == [s]
  {
    SplitWhereCount(s, IsDelimiter);
    SplitWhereParts(s, IsDelimiter);
    SplitWhereConcat(s, IsDelimiter, IsAsciiAlnum);
    NoDelimiterOneAtom(s);
    SplitWhere(s, IsDelimiter)
  }

  /** The first delimiter ends the first atom, and the rest is split on its
      own; so adjacent delimiters give an empty atom between them. */
  lemma SplitOnDelimitersStep(x: string, d: char, y: string)
    requires forall i :: 0 <= i < |x| ==> !IsDelimiter(x[i])
    requires IsDelimiter(d)
    ensures SplitOnDelimiters(x + [d] + y) == [x] + SplitOnDelimiters(y)
  {
    SplitWhereJoin(x, d, y, IsDelimiter);
  }

  /** Two delimiters in a row leave an empty atom between them. */
  lemma AdjacentDelimiters(x: string, d: char, e: char, y: string)
    requires forall i :: 0 <= i < |x| ==> !IsDelimiter(x[i])
    requires IsDelimiter(d) && IsDelimiter(e)
    ensures SplitOnDelimiters(x + [d, e] + y) == [x, []] + SplitOnDelimiters(y)
  {
    assert x + [d, e] + y == x + [d] + ([] + [e] + y);
    SplitOnDelimitersStep(x, d, [] + [e] + y);
    SplitOnDelimitersStep([], e, y);
  }
}

=== FILE: filter_rules.dfy ===
/** `Workflow._filter_item`: one word of a query classified against one
    search key by seven ordered match rules, each switched on by a bit of
    `match_on`, and the case-insensitive `.*?c1.*?c2…` search behind the
    ALLCHARS rule (workflow/old_workflow.py). */
module FilterRules {
  import opened Wrappers
  import opened Text
  import opened Constants

  /** The seven rules, in the order `_filter_item` tries them. */
  datatype Rule =
    | MatchStartsWith
    | MatchCapitals
    | MatchAtom
    | MatchInitialsStartsWith
    | MatchInitialsContain
    | MatchSubstring
    | MatchAllChars

  function Priority(r: Rule): (k: nat)
    ensures k < 7
  {
    match r
    case MatchStartsWith => 0
    case MatchCapitals => 1
    case MatchAtom => 2
    case MatchInitialsStartsWith => 3
    case MatchInitialsContain => 4
    case MatchSubstring => 5
    case MatchAllChars => 6
  }

  /** The `MATCH_*` constant `_filter_item` reports for a rule. */
  function Flag(r: Rule): int {
    match r
    case MatchStartsWith => MATCH_STARTSWITH
    case MatchCapitals => MATCH_CAPITALS
    case MatchAtom => MATCH_ATOM
    case MatchInitialsStartsWith => MATCH_INITIALS_STARTSWITH
    case MatchInitialsContain => MATCH_INITIALS_CONTAIN
    case MatchSubstring => MATCH_SUBSTRING
    case MatchAllChars => MATCH_ALLCHARS
  }

  /** Each rule's flag is the bit of its position, so rules and bits are in
      one-to-one correspondence. */
  lemma FlagIsPriorityBit(r: Rule, s: Rule)
    ensures Flag(r) == Pow2(Priority(r))
    ensures Priority(r) == Priority(s) <==> r == s
  {
    FlagsAreDistinctPowersOfTwo();
  }

  /** `match_on & MATCH_x` is non-zero. */
  predicate Enabled(matchOn: int, r: Rule) {
    BitSet(matchOn, Priority(r))
  }

  /** With `MATCH_ALL` every rule is on. */
  lemma AllRulesEnabledByMatchAll(r: Rule)
    ensures Enabled(MATCH_ALL, r)
  {
    CombinedFlagBits(Priority(r));
  }

  /** `(score, rule)`, with `rule == None` for `(0, None)`. */
  datatype Match = Match(score: real, rule: Option<Rule>)

  const NoMatch: Match := Match(0.0, None)

  // ---------------------------------------------------------------------
  // Ingredients of the rules

  predicate IsInitialsChar(c: char) { c in INITIALS }

  /** `''.join(c for c in value if c in INITIALS)`. */
  function Capitals(v: string): string {
    KeepWhere(v, IsInitialsChar)
  }

  function LowerAll(xs: seq<string>): (r: seq<string>)
    ensures |r| == |xs|
    ensures forall i :: 0 <= i < |xs| ==> r[i] == LowerS(xs[i])
  {
    seq(|xs|, i requires 0 <= i < |xs| => LowerS(xs[i]))
  }

  /** `[s.lower() for s in split_on_delimiters(value)]`. */
  function Atoms(v: string): seq<string> {
    LowerAll(SplitOnDelimiters(v))
  }

  /** The atoms that are not empty, in their order. */
  function NonEmptyAtoms(atoms: seq<string>): (r: seq<string>)
    ensures |r| <= |atoms|
    ensures forall i :: 0 <= i < |r| ==> r[i] != []
    ensures forall s :: s in r <==> s in atoms && s != []
  {
    if atoms == [] then []
    else (if atoms[0] != [] then [atoms[0]] else []) + NonEmptyAtoms(atoms[1..])
  }

  /** The filter works atom by atom: it keeps order and multiplicity. */
  lemma {:induction false} NonEmptyAtomsAppend(a: seq<string>, b: seq<string>)
    ensures NonEmptyAtoms(a + b) == NonEmptyAtoms(a) + NonEmptyAtoms(b)
  {
    if a != [] {
      assert (a + b)[0] == a[0];
      assert (a + b)[1..] == a[1..] + b;
      NonEmptyAtomsAppend(a[1..], b);
    } else {
      assert a + b == b;
    }
  }

  /** `''.join(s[0] for s in atoms if s)`: the first letter of every
      non-empty atom, in order. */
  function Initials(atoms: seq<string>): (r: string)
    ensures |r| == |NonEmptyAtoms(atoms)|
    ensures forall i :: 0 <= i < |r| ==> r[i] == NonEmptyAtoms(atoms)[i][0]
  {
    if atoms == [] then []
    else (if atoms[0] != [] then [atoms[0][0]] else []) + Initials(atoms[1..])
  }

  /** `len(a) / len(b)` with true division. */
  function Ratio(a: nat, b: nat): real
    requires b > 0
  {
    a as real / b as real
  }

  /** The key the rules see: folded to ASCII only when folding is asked for
      and the lower-cased word is all ASCII. */
  function Folded(value: string, q: string, foldDiacritics: bool, fold: string -> string): string {
    if foldDiacritics && IsAsciiString(q) then fold(value) else value
  }

  /** `set(query) <= set(value.lower())`. */
  predicate PreFilter(q: string, lv: string) {
    forall i :: 0 <= i < |q| ==> q[i] in lv
  }

  // ---------------------------------------------------------------------
  // The ALLCHARS pattern and its search

  /** The compiled `.*?c1.*?c2…`: one lazy step per character. */
  datatype Pattern = Pattern(chars: string)

  function Compile(q: string): (p: Pattern)
    ensures |p.chars| == |q|
  {
    Pattern(q)
  }

  /** Equality under `re.IGNORECASE`. */
  predicate SameIgnoringCase(a: char, b: char) { Lower(a) == Lower(b) }

  /** The regex engine on `.*?c1….*?ck` from position `pos`: the lazy step
      first tries to take `ci` right here and, when the rest then fails,
      lets `.*?` absorb one more character. The result is where the match
      ends. */
  function MatchFrom(q: string, v: string, pos: nat): (e: Option<nat>)
    requires pos <= |v|
    ensures e.Some? ==> pos + |q| <= e.value <= |v|
    decreases |v| - pos, |q|
  {
    if q == [] then Some(pos)
    else if pos == |v| then None
    else if SameIgnoringCase(v[pos], q[0]) then
      match MatchFrom(q[1..], v, pos + 1)
      case Some(e) => Some(e)
      case None => MatchFrom(q, v, pos + 1)
    else MatchFrom(q, v, pos + 1)
  }

  datatype Span = Span(start: nat, end: nat)

  /** `pattern.search(v)` from start position `s` on. */
  function SearchFrom(q: string, v: string, s: nat): (r: Option<Span>)
    requires s <= |v|
    ensures r.Some? ==> s <= r.value.start && r.value.start + |q| <= r.value.end <= |v|
    decreases |v| - s
  {
    match MatchFrom(q, v, s)
    case Some(e) => Some(Span(s, e))
    case None => if s == |v| then None else SearchFrom(q, v, s + 1)
  }

  function Search(p: Pattern, v: string): Option<Span> {
    SearchFrom(p.chars, v, 0)
  }

  /** Positions `idx` of `v`, from `pos` on and strictly increasing, at
      which the characters of `q` occur, ignoring case. */
  predicate IsEmbedding(q: string, v: string, pos: nat, idx: seq<nat>) {
    && |idx| == |q|
    && (forall k :: 0 <= k < |idx| ==> pos <= idx[k] < |v| && SameIgnoringCase(v[idx[k]], q[k]))
    && (forall k, l :: 0 <= k < l < |idx| ==> idx[k] < idx[l])
  }

  /** Where a match along `idx` ends. */
  function EndOf(pos: nat, idx: seq<nat>): nat {
    if idx == [] then pos else idx[|idx| - 1] + 1
  }

  /** `q` is a subsequence of `v`, ignoring case. */
  ghost predicate IsSubsequenceIgnoringCase(q: string, v: string) {
    exists idx :: IsEmbedding(q, v, 0, idx)
  }

  /** A match found by the lazy steps lies along an embedding and ends
      right after its last character. */
  lemma {:induction false} MatchFromSound(q: string, v: string, pos: nat) returns (idx: seq<nat>)
    requires pos <= |v|
    requires MatchFrom(q, v, pos).Some?
    ensures IsEmbedding(q, v, pos, idx)
    ensures MatchFrom(q, v, pos).value == EndOf(pos, idx)
    decreases |v| - pos, |q|
  {
    if q == [] {
      idx := [];
    } else if SameIgnoringCase(v[pos], q[0]) && MatchFrom(q[1..], v, pos + 1).Some? {
      var rest := MatchFromSound(q[1..], v, pos + 1);
      idx := [pos] + rest;
      assert forall k :: 0 < k < |idx| ==> idx[k] == rest[k - 1];
    } else {
      idx := MatchFromSound(q, v, pos + 1);
    }
  }

  /** Any embedding makes the lazy steps succeed, and they end no later
      than it does: the match is the earliest-ending one. */
  lemma {:induction false} MatchFromComplete(q: string, v: string, pos: nat, idx: seq<nat>)
    requires pos <= |v|
    requires IsEmbedding(q, v, pos, idx)
    ensures MatchFrom(q, v, pos).Some?
    ensures MatchFrom(q, v, pos).value <= EndOf(pos, idx)
    decreases |v| - pos, |q|
  {
    if q != [] {
      var tail := idx[1..];
      assert IsEmbedding(q[1..], v, pos + 1, tail) by {
        forall k | 0 <= k < |tail| ensures pos + 1 <= tail[k] {
          assert idx[0] < idx[k + 1];
        }
      }
      if |q| > 1 { assert EndOf(pos + 1, tail) == EndOf(pos, idx); }
      if idx[0] == pos {
        MatchFromComplete(q[1..], v, pos + 1, tail);
      } else {
        MatchFromComplete(q, v, pos + 1, idx);
        if SameIgnoringCase(v[pos], q[0]) {
          MatchFromComplete(q[1..], v, pos + 1, tail);
        }
      }
    }
  }

  /** A failed match from `s` fails from every later start too. */
  lemma {:induction false} MatchFromFailsLater(q: string, v: string, s: nat, t: nat)
    requires s <= t <= |v|
    requires MatchFrom(q, v, s).None?
    ensures MatchFrom(q, v, t).None?
    decreases t - s
  {
    if s < t {
      assert MatchFrom(q, v, s + 1).None?;
      MatchFromFailsLater(q, v, s + 1, t);
    }
  }

  lemma {:induction false} SearchFromNone(q: string, v: string, s: nat)
    requires s <= |v|
    requires MatchFrom(q, v, s).None?
    ensures SearchFrom(q, v, s).None?
    decreases |v| - s
  {
    if s < |v| {
      MatchFromFailsLater(q, v, s, s + 1);
      SearchFromNone(q, v, s + 1);
    }
  }

  /** Since `.*?` can skip any prefix, a search that succeeds at all
      succeeds at position 0: `match.start()` is always 0, and the
      match ends at the earliest end of an embedding of the word. */
  lemma SearchAllChars(q: string, v: string)
    ensures Search(Compile(q), v).Some? <==> IsSubsequenceIgnoringCase(q, v)
    ensures Search(Compile(q), v).Some? ==>
      && Search(Compile(q), v).value.start == 0
      && (exists idx :: IsEmbedding(q, v, 0, idx) && EndOf(0, idx) == Search(Compile(q), v).value.end)
      && (forall idx :: IsEmbedding(q, v, 0, idx) ==> Search(Compile(q), v).value.end <= EndOf(0, idx))
  {
    if MatchFrom(q, v, 0).None? {
      SearchFromNone(q, v, 0);
      if idx :| IsEmbedding(q, v, 0, idx) {
        MatchFromComplete(q, v, 0, idx);
        assert false;
      }
    } else {
      var idx := MatchFromSound(q, v, 0);
      forall idx' | IsEmbedding(q, v, 0, idx')
        ensures Search(Compile(q), v).value.end <= EndOf(0, idx')
      {
        MatchFromComplete(q, v, 0, idx');
      }
    }
  }

  // ---------------------------------------------------------------------
  // The rules as `_filter_item` runs them

  /** The score of a successful ALLCHARS search. */
  function AllCharsScore(span: Span): real
    requires span.start <= span.end
  {
    100.0 / ((1 + span.start) * (span.end - span.start + 1)) as real
  }

  function AllCharsMatch(p: Pattern, v: string): Match {
    match Search(p, v)
    case None => NoMatch
    case Some(span) => Match(AllCharsScore(span), Some(MatchAllChars))
  }

  /** STARTSWITH to SUBSTRING, on the (folded) key `v` and the lower-cased
      word `q`; `NoMatch` when none of them applies. */
  function FirstSixRules(v: string, q: string, matchOn: int): Match
    requires |q| > 0
  {
    var lv := LowerS(v);
    if Enabled(matchOn, MatchStartsWith) && StartsWith(lv, q) then
      Match(100.0 - Ratio(|v|, |q|), Some(MatchStartsWith))
    else if Enabled(matchOn, MatchCapitals) && StartsWith(LowerS(Capitals(v)), q) then
      Match(100.0 - Ratio(|Capitals(v)|, |q|), Some(MatchCapitals))
    else RulesFromAtom(v, q, matchOn)
  }

  /** ATOM to SUBSTRING, the part of the chain that looks at the atoms of
      the key and their initials. */
  function RulesFromAtom(v: string, q: string, matchOn: int): Match
    requires |q| > 0
  {
    var lv := LowerS(v);
    var atoms := Atoms(v);
    var initials := Initials(atoms);
    if Enabled(matchOn, MatchAtom) && q in atoms then
      Match(100.0 - Ratio(|v|, |q|), Some(MatchAtom))
    else if Enabled(matchOn, MatchInitialsStartsWith) && StartsWith(initials, q) then
      Match(100.0 - Ratio(|initials|, |q|), Some(MatchInitialsStartsWith))
    else if Enabled(matchOn, MatchInitialsContain) && IsSubstring(q, initials) then
      Match(95.0 - Ratio(|initials|, |q|), Some(MatchInitialsContain))
    else if Enabled(matchOn, MatchSubstring) && IsSubstring(q, lv) then
      Match(90.0 - Ratio(|v|, |q|), Some(MatchSubstring))
    else NoMatch
  }

  /** `_filter_item(value, word, match_on, fold_diacritics)`, with the
      pattern for the ALLCHARS rule given. */
  function MatchWordWith(p: Pattern, value: string, word: string, matchOn: int,
                         foldDiacritics: bool, fold: string -> string): Match
    requires |word| > 0
  {
    var q := LowerS(word);
    var v := Folded(value, q, foldDiacritics, fold);
    if !PreFilter(q, LowerS(v)) then NoMatch
    else
      var m := FirstSixRules(v, q, matchOn);
      if m.rule.Some? then m
      else if Enabled(matchOn, MatchAllChars) then AllCharsMatch(p, v)
      else NoMatch
  }

  /** `_filter_item` with the pattern the word compiles to. */
  function MatchWord(value: string, word: string, matchOn: int,
                     foldDiacritics: bool, fold: string -> string): Match
    requires |word| > 0
  {
    MatchWordWith(Compile(LowerS(word)), value, word, matchOn, foldDiacritics, fold)
  }

  // ---------------------------------------------------------------------
  // The rules stated one by one

  /** When rule `r` applies to the key `v` and the lower-cased word `q`. */
  ghost predicate Holds(r: Rule, v: string, q: string) {
    match r
    case MatchStartsWith => StartsWith(LowerS(v), q)
    case MatchCapitals => StartsWith(LowerS(Capitals(v)), q)
    case MatchAtom => q in Atoms(v)
    case MatchInitialsStartsWith => StartsWith(Initials(Atoms(v)), q)
    case MatchInitialsContain => IsSubstring(q, Initials(Atoms(v)))
    case MatchSubstring => IsSubstring(q, LowerS(v))
    case MatchAllChars => IsSubsequenceIgnoringCase(q, v)
  }

  /** The score rule `r` gives when it applies. ALLCHARS scores by where
      the earliest-ending embedding ends, which `SearchAllChars` ties to
      the search. */
  function RuleScore(r: Rule, v: string, q: string): real
    requires |q| > 0
  {
    match r
    case MatchStartsWith => 100.0 - Ratio(|v|, |q|)
    case MatchCapitals => 100.0 - Ratio(|Capitals(v)|, |q|)
    case MatchAtom => 100.0 - Ratio(|v|, |q|)
    case MatchInitialsStartsWith => 100.0 - Ratio(|Initials(Atoms(v))|, |q|)
    case MatchInitialsContain => 95.0 - Ratio(|Initials(Atoms(v))|, |q|)
    case MatchSubstring => 90.0 - Ratio(|v|, |q|)
    case MatchAllChars =>
      match Search(Compile(q), v)
      case Some(span) => AllCharsScore(span)
      case None => 0.0
  }

  /** The rule that applies and comes first among the enabled ones. */
  ghost predicate FirstHolding(r: Rule, v: string, q: string, matchOn: int) {
    && Enabled(matchOn, r) && Holds(r, v, q)
    && forall r' :: Priority(r') < Priority(r) ==> !(Enabled(matchOn, r') && Holds(r', v, q))
  }

  lemma FirstSixRulesSpec(v: string, q: string, matchOn: int)
    requires |q| > 0
    ensures var m := FirstSixRules(v, q, matchOn);
      && (m.rule.Some? ==> Priority(m.rule.value) < 6 && FirstHolding(m.rule.value, v, q, matchOn)
                           && m.score == RuleScore(m.rule.value, v, q))
      && (m.rule.None? ==> m == NoMatch
                           && forall r :: Priority(r) < 6 ==> !(Enabled(matchOn, r) && Holds(r, v, q)))
  {
  }

  /** `_filter_item` reports the first enabled rule that applies, with that
      rule's score, and `(0, None)` when the pre-filter rejects the key or
      no enabled rule applies. A rule whose bit is off is never reported. */
  lemma MatchWordIsFirstHoldingRule(value: string, word: string, matchOn: int,
                                    foldDiacritics: bool, fold: string -> string)
    requires |word| > 0
    ensures var q := LowerS(word);
      var v := Folded(value, q, foldDiacritics, fold);
      var m := MatchWord(value, word, matchOn, foldDiacritics, fold);
      && (m.rule.Some? <==> PreFilter(q, LowerS(v)) && exists r :: Enabled(matchOn, r) && Holds(r, v, q))
      && (m.rule.Some? ==> FirstHolding(m.rule.value, v, q, matchOn)
                           && m.score == RuleScore(m.rule.value, v, q))
      && (m.rule.None? ==> m == NoMatch)
  {
    var q := LowerS(word);
    var v := Folded(value, q, foldDiacritics, fold);
    var m := MatchWord(value, word, matchOn, foldDiacritics, fold);
    if PreFilter(q, LowerS(v)) {
      var m6 := FirstSixRules(v, q, matchOn);
      FirstSixRulesSpec(v, q, matchOn);
      if m6.rule.Some? {
        assert m == m6;
      } else {
        SearchAllChars(q, v);
        if Enabled(matchOn, MatchAllChars) && IsSubsequenceIgnoringCase(q, v) {
          assert m == Match(RuleScore(MatchAllChars, v, q), Some(MatchAllChars));
          assert FirstHolding(MatchAllChars, v, q, matchOn);
        } else {
          assert m == NoMatch;
          forall r | Enabled(matchOn, r) ensures !Holds(r, v, q) {
            if Priority(r) == 6 { assert r == MatchAllChars; }
          }
        }
      }
    }
  }

  /** A key missing one of the word's characters never matches. */
  lemma PreFilterRejects(value: string, word: string, matchOn: int,
                         foldDiacritics: bool, fold: string -> string, i: nat)
    requires |word| > 0 && i < |word|
    requires Lower(word[i]) !in LowerS(Folded(value, LowerS(word), foldDiacritics, fold))
    ensures MatchWord(value, word, matchOn, foldDiacritics, fold) == NoMatch
  {
  }

  /** The ALLCHARS score is `100 / (end + 1)` for a match ending at `end`,
      so it lies in `(0, 100 / (len(word) + 1)]`. */
  lemma AllCharsScoreBounds(q: string, v: string)
    requires Search(Compile(q), v).Some?
    ensures var span := Search(Compile(q), v).value;
      && AllCharsScore(span) == 100.0 / (span.end + 1) as real
      && 100.0 / (|v| + 1) as real <= AllCharsScore(span) <= 100.0 / (|q| + 1) as real
  {
    SearchAllChars(q, v);
    var span := Search(Compile(q), v).value;
    assert span.start == 0;
    DivideByLarger(100.0, (|q| + 1) as real, (span.end + 1) as real);
    DivideByLarger(100.0, (span.end + 1) as real, (|v| + 1) as real);
  }

  lemma DivideByLarger(a: real, x: real, y: real)
    requires a > 0.0 && 0.0 < x <= y
    ensures 0.0 < a / y <= a / x
  {
    assert a / y * y == a == a / x * x;
  }

  // ---------------------------------------------------------------------
  // Worked examples

  /** A STARTSWITH match on a key longer than 100 times the word scores
      below zero: 201 `a`s against `a` give `100 - 201`. */
  lemma NegativeStartsWithScore(fold: string -> string)
    ensures MatchWord(seq(201, _ => 'a'), "a", MATCH_ALL, false, fold) == Match(-101.0, Some(MatchStartsWith))
  {
    var v: string := seq(201, _ => 'a');
    assert LowerS(v)[0] == 'a';
    assert LowerS(v)[..1] == "a";
    AllRulesEnabledByMatchAll(MatchStartsWith);
  }
}

=== FILE: item.dfy ===
/** `Item` from workflow/item.py: one feedback result, its modifiers and
    its JSON object. */
module Items {
  import opened Wrappers
  import opened Values
  import opened Modifiers

  /** `_text()`: `largetype` for the large text, `copy` for the copy text. */
  function TextObj(largetext: Option<string>, copytext: Option<string>): (r: map<string, Value>)
    ensures "largetype" in r <==> largetext.Some?
    ensures largetext.Some? ==> r["largetype"] == String(largetext.value)
    ensures "copy" in r <==> copytext.Some?
    ensures copytext.Some? ==> r["copy"] == String(copytext.value)
    ensures forall k | k in r :: k == "largetype" || k == "copy"
    ensures r == map[] <==> largetext.None? && copytext.None?
  {
    var r := if largetext.Some? then map["largetype" := String(largetext.value)] else map[];
    if copytext.Some? then r["copy" := String(copytext.value)] else r
  }

  /** `_icon()` of an item, whose icon type is a plain string. */
  function ItemIconObj(icon: Option<string>, icontype: Option<string>): (r: map<string, Value>)
    ensures "path" in r <==> icon.Some?
    ensures icon.Some? ==> r["path"] == String(icon.value)
    ensures "type" in r <==> icontype.Some?
    ensures icontype.Some? ==> r["type"] == String(icontype.value)
    ensures forall k | k in r :: k == "path" || k == "type"
    ensures r == map[] <==> icon.None? && icontype.None?
  {
    var r := if icon.Some? then map["path" := String(icon.value)] else map[];
    if icontype.Some? then r["type" := String(icontype.value)] else r
  }

  /** An optional string entry. */
  function OptValue(v: Option<string>): (r: Option<Value>)
    ensures r.Some? <==> v.Some?
    ensures v.Some? ==> r.value == String(v.value)
  {
    if v.Some? then Some(String(v.value)) else None
  }

  /** A mapping entry that is left out when empty. */
  function NonEmpty(m: map<string, Value>): (r: Option<Value>)
    ensures r.Some? <==> m != map[]
    ensures m != map[] ==> r.value == Object(m)
  {
    if m != map[] then Some(Object(m)) else None
  }

  /** The keys an item object may have. */
  const ItemKeys: set<string> :=
    {"title", "subtitle", "valid", "arg", "autocomplete", "match", "uid", "type",
     "quicklookurl", "variables", "config", "text", "icon", "mods"}

  class Item {
    var title: string
    var subtitle: string
    var arg: Option<string>
    var autocomplete: Option<string>
    var match_: Option<string>
    var valid: bool
    var uid: Option<string>
    var icon: Option<string>
    var icontype: Option<string>
    var itemType: Option<string>
    var largetext: Option<string>
    var copytext: Option<string>
    var quicklookurl: Option<string>
    var modifiers: map<string, Modifier>
    var config: map<string, Value>
    var variables: map<string, Value>

    /** `Item(title, subtitle, arg, ...)`; `modifiers`, `config` and
        `variables` default to empty mappings. */
    constructor(title: string, subtitle: string, arg: Option<string>, autocomplete: Option<string>,
                match_: Option<string>, valid: bool, uid: Option<string>, icon: Option<string>,
                icontype: Option<string>, itemType: Option<string>, largetext: Option<string>,
                copytext: Option<string>, quicklookurl: Option<string>,
                modifiers: map<string, Modifier>, config: map<string, Value>, variables: map<string, Value>)
      ensures this.title == title && this.subtitle == subtitle && this.arg == arg
      ensures this.autocomplete == autocomplete && this.match_ == match_ && this.valid == valid
      ensures this.uid == uid && this.icon == icon && this.icontype == icontype
      ensures this.itemType == itemType && this.largetext == largetext
      ensures this.copytext == copytext && this.quicklookurl == quicklookurl
      ensures this.modifiers == modifiers && this.config == config && this.variables == variables
    {
      this.title := title;
      this.subtitle := subtitle;
      this.arg := arg;
      this.autocomplete := autocomplete;
      this.match_ := match_;
      this.valid := valid;
      this.uid := uid;
      this.icon := icon;
      this.icontype := icontype;
      this.itemType := itemType;
      this.largetext := largetext;
      this.copytext := copytext;
      this.quicklookurl := quicklookurl;
      this.modifiers := modifiers;
      this.config := config;
      this.variables := variables;
    }

    /** `setvar(name, value)`. */
    method SetVar(name: string, value: Value)
      modifies this`variables
      ensures variables == old(variables)[name := value]
      ensures GetVar(name, None) == Some(value)
      ensures forall n | n != name :: GetVar(n, None) == old(GetVar(n, None))
    {
      variables := variables[name := value];
    }

    /** `getvar(name, default)`. */
    function GetVar(name: string, default: Option<Value>): (r: Option<Value>)
      reads this
      ensures name in variables ==> r == Some(variables[name])
      ensures name !in variables ==> r == default
    {
      Lookup(variables, name, default)
    }

    /** `add_modifier(key, ...)`: a new modifier starting with a copy of the
        item's variables is stored under `key`, replacing any earlier one;
        the other modifiers stay. */
    method AddModifier(key: string, subtitle: Option<string>, arg: Option<string>, valid: Option<bool>,
                       icon: Option<string>, icontype: Option<IconType>)
      returns (m: Modifier)
      modifies this`modifiers
      ensures fresh(m)
      ensures modifiers == old(modifiers)[key := m]
      ensures m.key == key && m.subtitle == subtitle && m.arg == arg && m.valid == valid
      ensures m.icon == icon && m.icontype == icontype
      ensures m.variables == variables && m.config == map[]
    {
      m := new Modifier(key, subtitle, arg, valid, icon, icontype, map[], map[]);
      m.variables := m.variables + variables;
      modifiers := modifiers[key := m];
    }

    /** `_modifiers()`: each key mapped to its modifier's object. */
    function Mods(): (r: map<string, Value>)
      reads this, modifiers.Values
      ensures r.Keys == modifiers.Keys
      ensures forall k | k in r :: r[k] == Object(modifiers[k].Obj())
      ensures r == map[] <==> modifiers == map[]
    {
      map k | k in modifiers :: Object(modifiers[k].Obj())
    }

    /** `obj`, entry by entry (see `Entry`). */
    function Obj(): (r: map<string, Value>)
      reads this, modifiers.Values
      ensures "title" in r && r["title"] == String(title)
      ensures "subtitle" in r && r["subtitle"] == String(subtitle)
      ensures "valid" in r && r["valid"] == Bool(valid)
      ensures forall k | k in r :: k in ItemKeys && Entry(k) == Some(r[k])
    {
      map k | k in ItemKeys && Entry(k).Some? :: Entry(k).value
    }

    /** What `obj` holds under `key`, if anything. */
    function Entry(key: string): Option<Value>
      reads this, modifiers.Values
    {
      if key == "title" then Some(String(title))
      else if key == "subtitle" then Some(String(subtitle))
      else if key == "valid" then Some(Bool(valid))
      else if key == "arg" then OptValue(arg)
      else if key == "autocomplete" then OptValue(autocomplete)
      else if key == "match" then OptValue(match_)
      else if key == "uid" then OptValue(uid)
      else if key == "type" then OptValue(itemType)
      else if key == "quicklookurl" then OptValue(quicklookurl)
      else if key == "variables" then NonEmpty(variables)
      else if key == "config" then NonEmpty(config)
      else if key == "text" then NonEmpty(TextObj(largetext, copytext))
      else if key == "icon" then NonEmpty(ItemIconObj(icon, icontype))
      else if key == "mods" then NonEmpty(Mods())
      else None
    }
  }

  /** Each optional entry of `obj` is present exactly when its field is
      not `None`. */
  lemma ItemObjOptional(it: Item)
    ensures var r := it.Obj();
      && ("arg" in r <==> it.arg.Some?) && (it.arg.Some? ==> r["arg"] == String(it.arg.value))
      && ("autocomplete" in r <==> it.autocomplete.Some?)
      && (it.autocomplete.Some? ==> r["autocomplete"] == String(it.autocomplete.value))
      && ("match" in r <==> it.match_.Some?) && (it.match_.Some? ==> r["match"] == String(it.match_.value))
  {
    assert "arg" in ItemKeys && "autocomplete" in ItemKeys && "match" in ItemKeys;
  }

  lemma ItemObjOptionalMore(it: Item)
    ensures var r := it.Obj();
      && ("uid" in r <==> it.uid.Some?) && (it.uid.Some? ==> r["uid"] == String(it.uid.value))
      && ("type" in r <==> it.itemType.Some?) && (it.itemType.Some? ==> r["type"] == String(it.itemType.value))
      && ("quicklookurl" in r <==> it.quicklookurl.Some?)
      && (it.quicklookurl.Some? ==> r["quicklookurl"] == String(it.quicklookurl.value))
  {
    assert "uid" in ItemKeys && "type" in ItemKeys && "quicklookurl" in ItemKeys;
  }

  /** `variables` and `config` appear exactly when non-empty; `text` and
      `icon` exactly when one of their fields is set. */
  lemma ItemObjContainers(it: Item)
    ensures var r := it.Obj();
      && ("variables" in r <==> it.variables != map[])
      && (it.variables != map[] ==> r["variables"] == Object(it.variables))
      && ("config" in r <==> it.config != map[]) && (it.config != map[] ==> r["config"] == Object(it.config))
      && ("text" in r <==> it.largetext.Some? || it.copytext.Some?)
      && ("text" in r ==> r["text"] == Object(TextObj(it.largetext, it.copytext)))
      && ("icon" in r <==> it.icon.Some? || it.icontype.Some?)
      && ("icon" in r ==> r["icon"] == Object(ItemIconObj(it.icon, it.icontype)))
  {
    assert "variables" in ItemKeys && "config" in ItemKeys && "text" in ItemKeys && "icon" in ItemKeys;
  }

  /** `mods` appears exactly when there are modifiers, and maps each key
      to that modifier's `obj`. */
  lemma ItemObjMods(it: Item)
    ensures var r := it.Obj();
      && ("mods" in r <==> it.modifiers != map[])
      && (it.modifiers != map[] ==> r["mods"] == Object(map k | k in it.modifiers :: Object(it.modifiers[k].Obj())))
  {
    assert "mods" in ItemKeys;
  }
}

=== FILE: modifier.dfy ===
/** `Modifier` from workflow/modifier.py: what an item does when a modifier
    key is held, and its JSON object. */
module Modifiers {
  import opened Wrappers
  import opened Values

  /** `IconType`. */
  datatype IconType = FileType | FileIcon | FilePath

  /** An `IconType` member as it is put into the object. */
  function IconTypeValue(t: IconType): (v: Value)
    ensures v.Member?
  {
    match t
    case FileType => Member("FILETYPE")
    case FileIcon => Member("FILEICON")
    case FilePath => Member("FILEPATH")
  }

  /** A Python `dict.get(name, default)` on variables. */
  function Lookup(vars: map<string, Value>, name: string, default: Option<Value>): (r: Option<Value>)
    ensures name in vars ==> r == Some(vars[name])
    ensures name !in vars ==> r == default
  {
    if name in vars then Some(vars[name]) else default
  }

  /** `_icon()`, the `icon` mapping: `path` for an icon, `type` for an
      icon type. */
  function IconObj(icon: Option<string>, icontype: Option<IconType>): (r: map<string, Value>)
    ensures "path" in r <==> icon.Some?
    ensures icon.Some? ==> r["path"] == String(icon.value)
    ensures "type" in r <==> icontype.Some?
    ensures icontype.Some? ==> r["type"] == IconTypeValue(icontype.value)
    ensures forall k | k in r :: k == "path" || k == "type"
  {
    var r := if icon.Some? then map["path" := String(icon.value)] else map[];
    if icontype.Some? then r["type" := IconTypeValue(icontype.value)] else r
  }

  class Modifier {
    var key: string
    var subtitle: Option<string>
    var arg: Option<string>
    var valid: Option<bool>
    var icon: Option<string>
    var icontype: Option<IconType>
    var config: map<string, Value>
    var variables: map<string, Value>

    /** `Modifier(key, subtitle, arg, valid, icon, icontype, config,
        variables)`; the field defaults are `valid=True`,
        `icontype=IconType.FILEPATH` and empty `config` and `variables`. */
    constructor(key: string, subtitle: Option<string>, arg: Option<string>, valid: Option<bool>,
                icon: Option<string>, icontype: Option<IconType>,
                config: map<string, Value>, variables: map<string, Value>)
      ensures this.key == key && this.subtitle == subtitle && this.arg == arg
      ensures this.valid == valid && this.icon == icon && this.icontype == icontype
      ensures this.config == config && this.variables == variables
    {
      this.key := key;
      this.subtitle := subtitle;
      this.arg := arg;
      this.valid := valid;
      this.icon := icon;
      this.icontype := icontype;
      this.config := config;
      this.variables := variables;
    }

    /** `setvar(name, value)`: later `getvar(name)` returns `value`, and every
        other variable keeps its value. */
    method SetVar(name: string, value: Value)
      modifies this`variables
      ensures variables == old(variables)[name := value]
      ensures GetVar(name, None) == Some(value)
      ensures forall n | n != name :: GetVar(n, None) == old(GetVar(n, None))
    {
      variables := variables[name := value];
    }

    /** `getvar(name, default)`. */
    function GetVar(name: string, default: Option<Value>): (r: Option<Value>)
      reads this
      ensures name in variables ==> r == Some(variables[name])
      ensures name !in variables ==> r == default
    {
      Lookup(variables, name, default)
    }

    /** `obj`: each optional entry is present exactly when its field is set
        (the containers when they are non-empty). */
    function Obj(): (r: map<string, Value>)
      reads this
      ensures ("subtitle" in r <==> subtitle.Some?) && (subtitle.Some? ==> r["subtitle"] == String(subtitle.value))
      ensures ("arg" in r <==> arg.Some?) && (arg.Some? ==> r["arg"] == String(arg.value))
      ensures ("valid" in r <==> valid.Some?) && (valid.Some? ==> r["valid"] == Bool(valid.value))
      ensures ("variables" in r <==> variables != map[]) && (variables != map[] ==> r["variables"] == Object(variables))
      ensures ("config" in r <==> config != map[]) && (config != map[] ==> r["config"] == Object(config))
      ensures ("icon" in r <==> icon.Some? || icontype.Some?)
      ensures "icon" in r ==> r["icon"] == Object(IconObj(icon, icontype))
      ensures forall k | k in r :: k in {"subtitle", "arg", "valid", "variables", "config", "icon"}
    {
      var o: map<string, Value> := map[];
      var o := if subtitle.Some? then o["subtitle" := String(subtitle.value)] else o;
      var o := if arg.Some? then o["arg" := String(arg.value)] else o;
      var o := if valid.Some? then o["valid" := Bool(valid.value)] else o;
      var o := if variables != map[] then o["variables" := Object(variables)] else o;
      var o := if config != map[] then o["config" := Object(config)] else o;
      var i := IconObj(icon, icontype);
      assert i == map[] <==> icon.None? && icontype.None? by {
        if icon.Some? { assert "path" in i; }
        if icontype.Some? { assert "type" in i; }
      }
      if i != map[] then o["icon" := Object(i)] else o
    }
  }

  /** A modifier created with the defaults (`valid=True`,
      `icontype=FILEPATH`) always carries `valid` and an `icon` object of
      type `FILEPATH`. */
  lemma DefaultModifierObj(m: Modifier)
    requires m.valid == Some(true) && m.icontype == Some(FilePath)
    ensures "valid" in m.Obj() && m.Obj()["valid"] == Bool(true)
    ensures "icon" in m.Obj()
    ensures m.Obj()["icon"].Object? && m.Obj()["icon"].fields["type"] == Member("FILEPATH")
  {
  }
}

=== FILE: old_workflow.dfy ===
/** `Workflow.filter` of workflow/old_workflow.py: the query is split into
    words, every item's key is scored word by word by `_filter_item`, the
    items all of whose words match are sorted on
    `(100 / score, key.lower(), score)`, cut at `min_score` and
    `max_results`, and returned bare or as `(item, score, rule)` triples.
    The ALLCHARS patterns are kept in a cache that only grows. */
module OldWorkflow {
  import opened Wrappers
  import opened Text
  import opened Sorting
  import opened FilterRules

  // ---------------------------------------------------------------------
  // Specification

  predicate IsSpace(c: char) { c == ' ' }

  /** `[s.strip() for s in query.split(' ')]`. */
  function Words(query: string): (ws: seq<string>)
    ensures |ws| == |SplitWhere(query, IsSpace)| == CountWhere(query, IsSpace) + 1
    ensures forall k :: 0 <= k < |ws| ==> ws[k] == Strip(SplitWhere(query, IsSpace)[k])
    ensures forall k :: 0 <= k < |ws| ==> ' ' !in ws[k]
  {
    var parts := SplitWhere(query, IsSpace);
    SplitWhereCount(query, IsSpace);
    SplitWhereParts(query, IsSpace);
    forall k | 0 <= k < |parts| ensures ' ' !in Strip(parts[k]) {
      StripWithin(parts[k]);
      assert parts[k] in parts;
    }
    seq(|parts|, k requires 0 <= k < |parts| => Strip(parts[k]))
  }

  /** The options `_filter_item` is called with. The settings override
      of `fold_diacritics` is the caller's business: it arrives here as
      the value in force. */
  datatype Options = Options(matchOn: int, foldDiacritics: bool, fold: string -> string)

  /** `_filter_item(value, ·, match_on, fold_diacritics)` for one key;
      empty words, which `filter` never passes on, give `(0, None)`. */
  function Matcher(value: string, opts: Options): string -> Match {
    w => if w == [] then NoMatch else MatchWord(value, w, opts.matchOn, opts.foldDiacritics, opts.fold)
  }

  /** `skip`, `score` and `rule` of `filter`'s inner loop. */
  datatype Scan = Scan(skip: bool, score: real, rule: Option<Rule>)

  /** The inner loop of `filter` over `words`: empty words are passed
      over, a word scoring 0 sets `skip`, every score is added and `rule`
      is the rule of the word seen last. */
  function ScanWords(words: seq<string>, m: string -> Match): Scan {
    if words == [] then Scan(false, 0.0, None)
    else
      var acc := ScanWords(words[..|words| - 1], m);
      var w := words[|words| - 1];
      if w == [] then acc
      else Scan(acc.skip || m(w).score == 0.0, acc.score + m(w).score, m(w).rule)
  }

  /** The score of one word, 0 for an empty one. */
  function WordScore(w: string, m: string -> Match): real {
    if w == [] then 0.0 else m(w).score
  }

  /** The sum of the word scores, added up from the front. */
  function TotalScore(words: seq<string>, m: string -> Match): real {
    if words == [] then 0.0 else WordScore(words[0], m) + TotalScore(words[1..], m)
  }

  /** Every non-empty word gets a non-zero score. */
  ghost predicate AllWordsMatch(words: seq<string>, m: string -> Match) {
    forall k :: 0 <= k < |words| && words[k] != [] ==> m(words[k]).score != 0.0
  }

  /** `k` is the last non-empty word. */
  ghost predicate LastNonEmpty(words: seq<string>, k: int) {
    0 <= k < |words| && words[k] != [] && forall l :: k < l < |words| ==> words[l] == []
  }

  lemma {:induction false} TotalScoreSnoc(words: seq<string>, m: string -> Match)
    requires words != []
    ensures TotalScore(words, m) == TotalScore(words[..|words| - 1], m) + WordScore(words[|words| - 1], m)
  {
    if |words| > 1 {
      TotalScoreSnoc(words[1..], m);
      assert words[1..][..|words| - 2] == words[..|words| - 1][1..];
    }
  }

  /** The inner loop skips exactly the items one of whose words scores 0. */
  lemma {:induction false} ScanWordsSkip(words: seq<string>, m: string -> Match)
    ensures !ScanWords(words, m).skip <==> AllWordsMatch(words, m)
  {
    if words != [] {
      var n := |words| - 1;
      ScanWordsSkip(words[..n], m);
      assert forall k :: 0 <= k < n ==> words[..n][k] == words[k];
    }
  }

  /** The inner loop's `score` is the sum of the word scores. */
  lemma {:induction false} ScanWordsScore(words: seq<string>, m: string -> Match)
    ensures ScanWords(words, m).score == TotalScore(words, m)
  {
    if words != [] {
      ScanWordsScore(words[..|words| - 1], m);
      TotalScoreSnoc(words, m);
    }
  }

  /** The inner loop's `rule` is the rule of the last non-empty word. */
  lemma {:induction false} ScanWordsRule(words: seq<string>, m: string -> Match, k: int)
    requires LastNonEmpty(words, k)
    ensures ScanWords(words, m).rule == m(words[k]).rule
  {
    var n := |words| - 1;
    if k < n {
      assert words[n] == [];
      assert LastNonEmpty(words[..n], k);
      ScanWordsRule(words[..n], m, k);
    }
  }

  /** The three facts about the inner loop together. */
  lemma ScanWordsSpec(words: seq<string>, m: string -> Match)
    ensures var acc := ScanWords(words, m);
      && (!acc.skip <==> AllWordsMatch(words, m))
      && acc.score == TotalScore(words, m)
      && forall k :: LastNonEmpty(words, k) ==> acc.rule == m(words[k]).rule
  {
    ScanWordsSkip(words, m);
    ScanWordsScore(words, m);
    forall k | LastNonEmpty(words, k) ensures ScanWords(words, m).rule == m(words[k]).rule {
      ScanWordsRule(words, m, k);
    }
  }

  /** A result row: the item, its summed score, the rule of its last word
      and its stripped, lower-cased key. */
  datatype Entry<T> = Entry(item: T, score: real, rule: Option<Rule>, lowerKey: string)

  /** `filter`'s decision for one item: `None` when the stripped key is
      empty, some word scores 0 or the scores sum to 0. */
  function ScoreItem<T>(item: T, key: T -> string, words: seq<string>, opts: Options): (r: Option<Entry<T>>)
    ensures r.Some? ==> r.value.item == item && r.value.score != 0.0
  {
    var value := Strip(key(item));
    if value == [] then None
    else
      var acc := ScanWords(words, Matcher(value, opts));
      if acc.skip || acc.score == 0.0 then None
      else Some(Entry(item, acc.score, acc.rule, LowerS(value)))
  }

  /** What `filter` keeps of one item, stated without the loop. */
  lemma ScoreItemSpec<T>(item: T, key: T -> string, words: seq<string>, opts: Options)
    ensures var value := Strip(key(item));
      var m := Matcher(value, opts);
      var r := ScoreItem(item, key, words, opts);
      && (r.Some? <==> value != [] && AllWordsMatch(words, m) && TotalScore(words, m) != 0.0)
      && (r.Some? ==> && r.value.item == item
                      && r.value.score == TotalScore(words, m)
                      && r.value.lowerKey == LowerS(value)
                      && forall k :: LastNonEmpty(words, k) ==> r.value.rule == m(words[k]).rule)
  {
    ScanWordsSpec(words, Matcher(Strip(key(item)), opts));
  }

  /** `ScoreItem` for fixed key function, words and options. */
  function Scorer<T>(key: T -> string, words: seq<string>, opts: Options): T -> Option<Entry<T>> {
    item => ScoreItem(item, key, words, opts)
  }

  /** The rows of the items that `score` keeps, in item order. */
  function Candidates<T>(items: seq<T>, score: T -> Option<Entry<T>>): seq<Entry<T>> {
    if items == [] then []
    else
      var init := Candidates(items[..|items| - 1], score);
      match score(items[|items| - 1])
      case Some(e) => init + [e]
      case None => init
  }

  /** Every row is the row of one of the items. */
  lemma {:induction false} CandidatesSound<T>(items: seq<T>, score: T -> Option<Entry<T>>)
    ensures forall e | e in Candidates(items, score) ::
      exists i :: 0 <= i < |items| && score(items[i]) == Some(e)
  {
    if items != [] {
      var n := |items| - 1;
      var init := items[..n];
      CandidatesSound(init, score);
      forall e | e in Candidates(items, score)
        ensures exists i :: 0 <= i < |items| && score(items[i]) == Some(e)
      {
        if e in Candidates(init, score) {
          var i :| 0 <= i < n && score(init[i]) == Some(e);
          assert items[i] == init[i];
        } else {
          assert score(items[n]) == Some(e);
        }
      }
    }
  }

  /** Every item that `score` keeps has its row. */
  lemma {:induction false} CandidatesComplete<T>(items: seq<T>, score: T -> Option<Entry<T>>)
    ensures forall i | 0 <= i < |items| && score(items[i]).Some? ::
      score(items[i]).value in Candidates(items, score)
  {
    if items != [] {
      var n := |items| - 1;
      var init := items[..n];
      CandidatesComplete(init, score);
      forall i | 0 <= i < |items| && score(items[i]).Some?
        ensures score(items[i]).value in Candidates(items, score)
      {
        if i < n {
          assert items[i] == init[i];
        }
      }
    }
  }

  /** `100.0 / score`; rows never have score 0. */
  function Inverse(score: real): real {
    if score == 0.0 then 0.0 else 100.0 / score
  }

  /** Python's comparison of the sort keys `(100.0 / score, value.lower(), score)`. */
  predicate KeyLess<T>(a: Entry<T>, b: Entry<T>) {
    || Inverse(a.score) < Inverse(b.score)
    || (Inverse(a.score) == Inverse(b.score)
        && (StrLess(a.lowerKey, b.lowerKey) || (a.lowerKey == b.lowerKey && a.score < b.score)))
  }

  /** Two rows with the same sort key. */
  predicate SameKey<T>(a: Entry<T>, b: Entry<T>) {
    Inverse(a.score) == Inverse(b.score) && a.lowerKey == b.lowerKey && a.score == b.score
  }

  lemma KeyLessTotal<T>(a: Entry<T>, b: Entry<T>)
    ensures KeyLess(a, b) || KeyLess(b, a) || SameKey(a, b)
  {
    StrLessTotal(a.lowerKey, b.lowerKey);
  }

  lemma KeyLessTransitive<T>(a: Entry<T>, b: Entry<T>, c: Entry<T>)
    requires KeyLess(a, b) && KeyLess(b, c)
    ensures KeyLess(a, c)
  {
    if StrLess(a.lowerKey, b.lowerKey) && StrLess(b.lowerKey, c.lowerKey) {
      StrLessTransitive(a.lowerKey, b.lowerKey, c.lowerKey);
    }
  }

  /** The sort keys are compared as a strict total order, so the sort is
      well defined on any rows. */
  lemma KeyLessIsStrictWeakOrder<T>(s: seq<Entry<T>>)
    ensures StrictWeakOrderOn(KeyLess, s)
  {
    forall a: Entry<T> ensures !KeyLess(a, a) { StrLessIrreflexive(a.lowerKey); }
    forall a: Entry<T>, b: Entry<T>, c: Entry<T> | KeyLess(a, b) && KeyLess(b, c)
      ensures KeyLess(a, c)
    {
      KeyLessTransitive(a, b, c);
    }
    forall a: Entry<T>, b: Entry<T>, c: Entry<T> | KeyLess(a, c)
      ensures KeyLess(a, b) || KeyLess(b, c)
    {
      KeyLessTotal(a, b);
      if KeyLess(b, a) { KeyLessTransitive(b, a, c); }
    }
  }

  /** `results.sort(reverse=ascending)`: reversing keeps equal keys in
      their original order, so it is the sort by the flipped comparison. */
  function Order<T>(ascending: bool): (Entry<T>, Entry<T>) -> bool {
    if ascending then Flip(KeyLess) else KeyLess
  }

  /** `[r for r in results if r[1] > min_score]`. */
  function AboveMinScore<T>(rows: seq<Entry<T>>, minScore: real): (r: seq<Entry<T>>)
    ensures forall e | e in r :: e in rows && e.score > minScore
    ensures forall e | e in rows && e.score > minScore :: e in r
  {
    if rows == [] then []
    else (if rows[0].score > minScore then [rows[0]] else []) + AboveMinScore(rows[1..], minScore)
  }

  function Min(a: int, b: int): int { if a <= b then a else b }
  function Max(a: int, b: int): int { if a <= b then b else a }

  /** Python's `s[:n]`: a negative `n` counts from the end. */
  function PyPrefix<U>(s: seq<U>, n: int): (r: seq<U>)
    ensures |r| == if 0 <= n then Min(n, |s|) else Max(|s| + n, 0)
    ensures r == s[..|r|]
  {
    if 0 <= n then s[..Min(n, |s|)] else s[..Max(|s| + n, 0)]
  }

  /** The rows `filter` returns for the non-blank stripped query `q`, in
      order. */
  function Ranked<T>(items: seq<T>, key: T -> string, q: string, ascending: bool,
                     minScore: real, maxResults: int, opts: Options): seq<Entry<T>>
  {
    Truncated(KeptAbove(SortSeq(Candidates(items, Scorer(key, Words(q), opts)), Order(ascending)),
                        minScore), maxResults)
  }

  /** The `min_score` step: a zero threshold keeps every row. */
  function KeptAbove<T>(rows: seq<Entry<T>>, minScore: real): seq<Entry<T>> {
    if minScore != 0.0 then AboveMinScore(rows, minScore) else rows
  }

  /** The `max_results` step: zero, or a bound no smaller than the row
      count, keeps every row. */
  function Truncated<T>(rows: seq<Entry<T>>, maxResults: int): seq<Entry<T>> {
    if maxResults != 0 && |rows| > maxResults then PyPrefix(rows, maxResults) else rows
  }

  datatype FilterResult<T> = Items(items: seq<T>) | Scored(rows: seq<(T, real, Option<Rule>)>)

  function Triples<T>(rows: seq<Entry<T>>): (r: seq<(T, real, Option<Rule>)>)
    ensures |r| == |rows|
    ensures forall k :: 0 <= k < |rows| ==> r[k] == (rows[k].item, rows[k].score, rows[k].rule)
  {
    seq(|rows|, k requires 0 <= k < |rows| => (rows[k].item, rows[k].score, rows[k].rule))
  }

  function ItemsOf<T>(rows: seq<Entry<T>>): (r: seq<T>)
    ensures |r| == |rows|
    ensures forall k :: 0 <= k < |rows| ==> r[k] == rows[k].item
  {
    seq(|rows|, k requires 0 <= k < |rows| => rows[k].item)
  }

  /** `filter(query, items, key, ascending, include_score, min_score,
      max_results, match_on, fold_diacritics)`. */
  function FilterSpec<T>(query: string, items: seq<T>, key: T -> string, ascending: bool,
                         includeScore: bool, minScore: real, maxResults: int,
                         opts: Options): FilterResult<T>
  {
    if query == [] || Strip(query) == [] then Items(items)
    else
      var rows := Ranked(items, key, Strip(query), ascending, minScore, maxResults, opts);
      if includeScore then Scored(Triples(rows)) else Items(ItemsOf(rows))
  }

  // ---------------------------------------------------------------------
  // Properties of the specification

  /** A query made only of whitespace returns `items` unchanged. */
  lemma BlankQueryReturnsItems<T>(query: string, items: seq<T>, key: T -> string, ascending: bool,
                                  includeScore: bool, minScore: real, maxResults: int, opts: Options)
    requires forall i :: 0 <= i < |query| ==> IsWhitespace(query[i])
    ensures FilterSpec(query, items, key, ascending, includeScore, minScore, maxResults, opts) == Items(items)
  {
    StripEmptyIffAllWhitespace(query);
  }

  lemma {:induction false} RankedRowsAreCandidates<T>(items: seq<T>, key: T -> string, q: string, ascending: bool,
                                                      minScore: real, maxResults: int, opts: Options)
    ensures forall e | e in Ranked(items, key, q, ascending, minScore, maxResults, opts) ::
      e in Candidates(items, Scorer(key, Words(q), opts)) && (minScore != 0.0 ==> e.score > minScore)
  {
    var cands := Candidates(items, Scorer(key, Words(q), opts));
    var rows := SortSeq(cands, Order(ascending));
    var kept := if minScore != 0.0 then AboveMinScore(rows, minScore) else rows;
    SortSeqPermutes(cands, Order(ascending));
    forall e | e in Ranked(items, key, q, ascending, minScore, maxResults, opts)
      ensures e in cands && (minScore != 0.0 ==> e.score > minScore)
    {
      assert e in kept;
      assert e in multiset(rows);
    }
  }

  /** Every returned row is the row of one of `items` that is kept (what
      that means is `ScoreItemSpec`), and its score is above `min_score`
      when that is set. */
  lemma RankedRowsAreKeptItems<T>(items: seq<T>, key: T -> string, q: string, ascending: bool,
                                  minScore: real, maxResults: int, opts: Options)
    ensures forall e | e in Ranked(items, key, q, ascending, minScore, maxResults, opts) ::
      && e.item in items
      && ScoreItem(e.item, key, Words(q), opts) == Some(e)
      && (minScore != 0.0 ==> e.score > minScore)
  {
    RankedRowsAreCandidates(items, key, q, ascending, minScore, maxResults, opts);
    CandidatesSound(items, Scorer(key, Words(q), opts));
  }

  /** With neither `min_score` nor `max_results`, every kept item is
      returned, exactly as often as it occurs in `items`. */
  lemma RankedKeepsEveryMatch<T>(items: seq<T>, key: T -> string, q: string, ascending: bool, opts: Options)
    ensures multiset(Ranked(items, key, q, ascending, 0.0, 0, opts))
         == multiset(Candidates(items, Scorer(key, Words(q), opts)))
  {
    SortSeqPermutes(Candidates(items, Scorer(key, Words(q), opts)), Order(ascending));
  }

  lemma {:induction false} AboveMinScoreSorted<T>(rows: seq<Entry<T>>, minScore: real,
                                                  less: (Entry<T>, Entry<T>) -> bool)
    requires SortedBy(rows, less)
    ensures SortedBy(AboveMinScore(rows, minScore), less)
  {
    if rows != [] {
      AboveMinScoreSorted(rows[1..], minScore, less);
      var tail := AboveMinScore(rows[1..], minScore);
      forall j | 0 <= j < |tail| ensures !less(tail[j], rows[0]) {
        assert tail[j] in rows[1..];
      }
    }
  }

  /** The rows come out sorted on the keys, flipped when `ascending`. */
  lemma RankedIsSorted<T>(items: seq<T>, key: T -> string, q: string, ascending: bool,
                          minScore: real, maxResults: int, opts: Options)
    ensures SortedBy(Ranked(items, key, q, ascending, minScore, maxResults, opts), Order(ascending))
  {
    var cands := Candidates(items, Scorer(key, Words(q), opts));
    KeyLessIsStrictWeakOrder(cands);
    if ascending { WeakOrderOnFlip(KeyLess, cands); }
    SortSeqSorted(cands, Order(ascending));
    var rows := SortSeq(cands, Order(ascending));
    AboveMinScoreSorted(rows, minScore, Order(ascending));
  }

  lemma MulPositive(x: real, y: real, z: real)
    requires x <= y && z > 0.0
    ensures x * z <= y * z
  {}

  lemma InverseOrder(a: real, b: real)
    requires a > 0.0 && b != 0.0 && Inverse(a) <= Inverse(b)
    ensures 0.0 < b <= a
  {
    var x, y := 100.0 / a, 100.0 / b;
    assert x * a == 100.0 && y * b == 100.0;
    assert x > 0.0;
    if b > 0.0 {
      MulPositive(x, y, a * b);
      assert x * (a * b) == 100.0 * b;
      assert y * (a * b) == 100.0 * a;
    }
  }

  /** Best matches first: with `ascending=False` a positive score is never
      followed by a negative or a higher one, equal scores come in
      alphabetical order of the key, and negative scores come before all
      positive ones. */
  lemma RankedBestFirst<T>(items: seq<T>, key: T -> string, q: string,
                           minScore: real, maxResults: int, opts: Options, i: nat, j: nat)
    requires i < j < |Ranked(items, key, q, false, minScore, maxResults, opts)|
    ensures var out := Ranked(items, key, q, false, minScore, maxResults, opts);
      && (out[i].score > 0.0 ==> 0.0 < out[j].score <= out[i].score)
      && (out[j].score < 0.0 ==> out[i].score < 0.0)
      && (out[i].score == out[j].score ==> !StrLess(out[j].lowerKey, out[i].lowerKey))
  {
    var out := Ranked(items, key, q, false, minScore, maxResults, opts);
    RankedIsSorted(items, key, q, false, minScore, maxResults, opts);
    RankedRowsAreKeptItems(items, key, q, false, minScore, maxResults, opts);
    assert out[i] in out && out[j] in out;
    assert !KeyLess(out[j], out[i]);
    if out[i].score > 0.0 {
      InverseOrder(out[i].score, out[j].score);
    }
  }

  /** `max_results` caps the number of rows when positive and does
      nothing when 0; the rows kept are the first ones. */
  lemma MaxResultsBound<T>(items: seq<T>, key: T -> string, q: string, ascending: bool,
                           minScore: real, maxResults: int, opts: Options)
    ensures var out := Ranked(items, key, q, ascending, minScore, maxResults, opts);
      var all := Ranked(items, key, q, ascending, minScore, 0, opts);
      && (maxResults >= 0 ==> |out| == (if maxResults == 0 then |all| else Min(maxResults, |all|)))
      && out == all[..|out|]
  {
  }

  /** `results.sort(reverse=ascending)`, on the list held in an array. */
  method SortRows<T>(rows: seq<Entry<T>>, ascending: bool) returns (sorted: seq<Entry<T>>)
    ensures sorted == SortSeq(rows, Order(ascending))
  {
    var a := new Entry<T>[|rows|](i requires 0 <= i < |rows| => rows[i]);
    assert a[..] == rows;
    SortInPlace(a, Order(ascending));
    sorted := a[..];
  }

  // ---------------------------------------------------------------------
  // The object

  class Workflow {
    /** `_search_pattern_cache`: word to compiled ALLCHARS pattern. */
    var searchPatternCache: map<string, Pattern>

    ghost predicate Valid()
      reads this
    {
      forall w | w in searchPatternCache :: searchPatternCache[w] == Compile(w)
    }

    constructor ()
      ensures Valid() && searchPatternCache == map[]
    {
      searchPatternCache := map[];
    }

    /** `_search_for_query`: the cached pattern of `q`, compiled and
        stored on first use. */
    method SearchForQuery(q: string) returns (p: Pattern)
      requires Valid()
      modifies this
      ensures Valid()
      ensures p == Compile(q)
      ensures searchPatternCache == old(searchPatternCache)[q := p]
    {
      if q in searchPatternCache {
        p := searchPatternCache[q];
        return;
      }
      var chars: string := [];
      for i := 0 to |q|
        invariant chars == q[..i]
      {
        chars := chars + [q[i]];
      }
      p := Pattern(chars);
      searchPatternCache := searchPatternCache[q := p];
    }

    /** `_filter_item`, fetching the ALLCHARS pattern from the cache. */
    method FilterItem(value: string, word: string, matchOn: int,
                      foldDiacritics: bool, fold: string -> string) returns (m: Match)
      requires |word| > 0 && Valid()
      modifies this
      ensures Valid() && old(searchPatternCache).Keys <= searchPatternCache.Keys
      ensures m == MatchWord(value, word, matchOn, foldDiacritics, fold)
    {
      var q := LowerS(word);
      var v := Folded(value, q, foldDiacritics, fold);
      if !PreFilter(q, LowerS(v)) {
        return NoMatch;
      }
      m := FirstSixRules(v, q, matchOn);
      if m.rule.Some? {
        return;
      }
      if Enabled(matchOn, MatchAllChars) {
        var p := SearchForQuery(q);
        m := AllCharsMatch(p, v);
      } else {
        m := NoMatch;
      }
    }

    /** The inner loop of `filter` for one stripped, non-empty key. */
    method ScanKey(value: string, words: seq<string>, matchOn: int,
                   foldDiacritics: bool, fold: string -> string) returns (acc: Scan)
      requires Valid()
      modifies this
      ensures Valid() && old(searchPatternCache).Keys <= searchPatternCache.Keys
      ensures acc == ScanWords(words, Matcher(value, Options(matchOn, foldDiacritics, fold)))
    {
      ghost var m := Matcher(value, Options(matchOn, foldDiacritics, fold));
      var skip, score, rule := false, 0.0, None;
      for j := 0 to |words|
        invariant Valid() && old(searchPatternCache).Keys <= searchPatternCache.Keys
        invariant Scan(skip, score, rule) == ScanWords(words[..j], m)
      {
        assert words[..j + 1][..j] == words[..j];
        var word := words[j];
        if word != [] {
          var s := FilterItem(value, word, matchOn, foldDiacritics, fold);
          assert s == m(word);
          if s.score == 0.0 {
            skip := true;
          }
          score := score + s.score;
          rule := s.rule;
        }
      }
      assert words[..|words|] == words;
      acc := Scan(skip, score, rule);
    }

    /** The loop of `filter` over the items: the rows of the items kept,
        in item order. */
    method CollectRows<T>(items: seq<T>, key: T -> string, words: seq<string>, matchOn: int,
                          foldDiacritics: bool, fold: string -> string) returns (results: seq<Entry<T>>)
      requires Valid()
      modifies this
      ensures Valid() && old(searchPatternCache).Keys <= searchPatternCache.Keys
      ensures results == Candidates(items, Scorer(key, words, Options(matchOn, foldDiacritics, fold)))
    {
      ghost var score := Scorer(key, words, Options(matchOn, foldDiacritics, fold));
      results := [];
      for i := 0 to |items|
        invariant Valid() && old(searchPatternCache).Keys <= searchPatternCache.Keys
        invariant results == Candidates(items[..i], score)
      {
        assert items[..i + 1][..i] == items[..i];
        var item := items[i];
        var value := Strip(key(item));
        if value != [] {
          var acc := ScanKey(value, words, matchOn, foldDiacritics, fold);
          if !acc.skip && acc.score != 0.0 {
            results := results + [Entry(item, acc.score, acc.rule, LowerS(value))];
          }
        }
      }
      assert items[..|items|] == items;
    }

    /** `filter`. */
    method Filter<T>(query: string, items: seq<T>, key: T -> string, ascending: bool,
                     includeScore: bool, minScore: real, maxResults: int, matchOn: int,
                     foldDiacritics: bool, fold: string -> string) returns (r: FilterResult<T>)
      requires Valid()
      modifies this
      ensures Valid() && old(searchPatternCache).Keys <= searchPatternCache.Keys
      ensures r == FilterSpec(query, items, key, ascending, includeScore, minScore, maxResults,
                              Options(matchOn, foldDiacritics, fold))
    {
      if query == [] {
        return Items(items);
      }
      var q := Strip(query);
      if q == [] {
        return Items(items);
      }
      var results := CollectRows(items, key, Words(q), matchOn, foldDiacritics, fold);
      results := SortRows(results, ascending);
      results := KeptAbove(results, minScore);
      results := Truncated(results, maxResults);
      r := if includeScore then Scored(Triples(results)) else Items(ItemsOf(results));
    }
  }
}

=== FILE: serializers.dfy ===
/** `SerializerManager` from workflow/serializers.py: a table of serializer
    objects by name, updated in place. */
module Serializers {
  import opened Wrappers
  import opened Text

  /** A serializer object: its identity and the names of its attributes. */
  datatype Serializer = Serializer(id: nat, attributes: set<string>)

  /** What `register` checks with `getattr`. */
  predicate HasLoadAndDump(s: Serializer) {
    "load" in s.attributes && "dump" in s.attributes
  }

  /** Strictly increasing in `str` order, hence without repeats. */
  predicate StrictlyAscending(names: seq<string>) {
    forall i, j | 0 <= i < j < |names| :: StrLess(names[i], names[j])
  }

  /** Inserting a new name into a strictly ascending sequence. */
  function InsertName(x: string, s: seq<string>): (r: seq<string>)
    requires StrictlyAscending(s) && x !in s
    ensures StrictlyAscending(r)
    ensures forall n :: n in r <==> n in s || n == x
  {
    if s == [] then [x]
    else if StrLess(x, s[0]) then
      assert forall j | 0 < j < |s| :: StrLess(x, s[j]) by {
        forall j | 0 < j < |s| ensures StrLess(x, s[j]) { StrLessTransitive(x, s[0], s[j]); }
      }
      [x] + s
    else
      StrLessTotal(x, s[0]);
      var rest := InsertName(x, s[1..]);
      assert forall j | 0 <= j < |rest| :: StrLess(s[0], rest[j]) by {
        forall j | 0 <= j < |rest| ensures StrLess(s[0], rest[j]) {
          assert rest[j] in rest;
          if rest[j] != x {
            var k :| 0 <= k < |s[1..]| && s[1..][k] == rest[j];
            assert s[k + 1] == rest[j];
          }
        }
      }
      [s[0]] + rest
  }

  /** A strictly ascending sequence is determined by its elements, so
      `serializers` has exactly one possible answer. */
  lemma {:induction false} AscendingUnique(a: seq<string>, b: seq<string>)
    requires StrictlyAscending(a) && StrictlyAscending(b)
    requires forall n :: n in a <==> n in b
    ensures a == b
  {
    if a != [] { assert a[0] in a; }
    if b != [] { assert b[0] in b; }
    if a != [] && b != [] {
      // Both heads are the least element.
      assert a[0] in b && b[0] in a;
      if a[0] != b[0] {
        var i :| 0 <= i < |b| && b[i] == a[0];
        var j :| 0 <= j < |a| && a[j] == b[0];
        assert StrLess(b[0], a[0]) && StrLess(a[0], b[0]);
        StrLessAsymmetric(a[0], b[0]);
      }
      forall n ensures n in a[1..] <==> n in b[1..] {
        if n in a[1..] {
          var i :| 1 <= i < |a| && a[i] == n;
          StrLessIrreflexive(n);
          assert n in a;
          var k :| 0 <= k < |b| && b[k] == n;
          assert k != 0;
          assert b[1..][k - 1] == n;
        }
        if n in b[1..] {
          var i :| 1 <= i < |b| && b[i] == n;
          StrLessIrreflexive(n);
          assert n in b;
          var k :| 0 <= k < |a| && a[k] == n;
          assert k != 0;
          assert a[1..][k - 1] == n;
        }
      }
      AscendingUnique(a[1..], b[1..]);
      assert a == [a[0]] + a[1..] && b == [b[0]] + b[1..];
    }
  }

  class SerializerManager {
    /** `_serializers`. */
    var table: map<string, Serializer>

    constructor()
      ensures table == map[]
    {
      table := map[];
    }

    /** `register(name, serializer)`: `AttributeError` for an object without
        `load` or `dump`, otherwise the entry for `name` is set, replacing
        any earlier one. */
    method Register(name: string, s: Serializer) returns (r: Result<()>)
      modifies this
      ensures HasLoadAndDump(s) ==> r == Ok(()) && table == old(table)[name := s]
      ensures !HasLoadAndDump(s) ==> r.Err? && r.error.kind == AttributeError && table == old(table)
    {
      if "load" !in s.attributes {
        return Err(Error(AttributeError, "load"));
      }
      if "dump" !in s.attributes {
        return Err(Error(AttributeError, "dump"));
      }
      table := table[name := s];
      r := Ok(());
    }

    /** `serializer(name)`: the registered object, or `None`. */
    function SerializerFor(name: string): (r: Option<Serializer>)
      reads this
      ensures r.Some? <==> name in table
      ensures r.Some? ==> r.value == table[name]
    {
      if name in table then Some(table[name]) else None
    }

    /** `unregister(name)`: `ValueError` and no change for an unknown name;
        otherwise the entry is removed and its object returned. */
    method Unregister(name: string) returns (r: Result<Serializer>)
      modifies this
      ensures name !in old(table) ==> r.Err? && r.error.kind == ValueError && table == old(table)
      ensures name in old(table) ==> r == Ok(old(table)[name]) && table == old(table) - {name}
    {
      if name !in table {
        return Err(Error(ValueError, "No such serializer registered : " + name));
      }
      var s := table[name];
      table := table - {name};
      r := Ok(s);
    }

    /** `serializers`: `sorted` of the registered names. */
    method Names() returns (names: seq<string>)
      ensures StrictlyAscending(names)
      ensures forall n :: n in names <==> n in table
    {
      names := [];
      var rest := table.Keys;
      while rest != {}
        invariant rest <= table.Keys
        invariant StrictlyAscending(names)
        invariant forall n :: n in names <==> n in table && n !in rest
        decreases rest
      {
        var n :| n in rest;
        names := InsertName(n, names);
        rest := rest - {n};
      }
    }
  }
}

=== FILE: sorting.dfy ===
/** Python's `list.sort` over a comparison `less` (the `<` of the elements):
    a stable insertion sort, its permutation property, and its sortedness
    whenever `less` behaves as a strict weak order on the elements. */
module Sorting {

  /** What a sort needs of `<` on the elements at hand: irreflexive,
      transitive, and with transitive incomparability. */
  ghost predicate StrictWeakOrderOn<T>(less: (T, T) -> bool, s: seq<T>) {
    && (forall a | a in s :: !less(a, a))
    && (forall a, b, c | a in s && b in s && c in s :: less(a, b) && less(b, c) ==> less(a, c))
    && (forall a, b, c | a in s && b in s && c in s :: !less(a, b) && !less(b, c) ==> !less(a, c))
  }

  /** No later element is strictly smaller than an earlier one. */
  ghost predicate SortedBy<T>(s: seq<T>, less: (T, T) -> bool) {
    forall i, j :: 0 <= i < j < |s| ==> !less(s[j], s[i])
  }

  /** The comparison `sort(reverse=True)` applies. */
  function Flip<T>(less: (T, T) -> bool): (T, T) -> bool {
    (a, b) => less(b, a)
  }

  /** Places `x` before the first element that is not smaller than it. */
  function Insert<T>(x: T, s: seq<T>, less: (T, T) -> bool): (r: seq<T>)
    ensures |r| == |s| + 1
  {
    if s == [] then [x]
    else if less(s[0], x) then [s[0]] + Insert(x, s[1..], less)
    else [x] + s
  }

  /** A stable insertion sort: `s[0]` goes into the sorted rest. */
  function SortSeq<T>(s: seq<T>, less: (T, T) -> bool): (r: seq<T>)
    ensures |r| == |s|
  {
    if s == [] then [] else Insert(s[0], SortSeq(s[1..], less), less)
  }

  lemma {:induction false} InsertPermutes<T>(x: T, s: seq<T>, less: (T, T) -> bool)
    ensures multiset(Insert(x, s, less)) == multiset(s) + multiset{x}
  {
    if s != [] && less(s[0], x) {
      InsertPermutes(x, s[1..], less);
      assert s == [s[0]] + s[1..];
    }
  }

  /** The sort returns the same elements, each as often. */
  lemma {:induction false} SortSeqPermutes<T>(s: seq<T>, less: (T, T) -> bool)
    ensures multiset(SortSeq(s, less)) == multiset(s)
  {
    if s != [] {
      SortSeqPermutes(s[1..], less);
      InsertPermutes(s[0], SortSeq(s[1..], less), less);
      assert s == [s[0]] + s[1..];
    }
  }

  lemma WeakOrderOnSubset<T>(less: (T, T) -> bool, s: seq<T>, t: seq<T>)
    requires StrictWeakOrderOn(less, s)
    requires forall x | x in t :: x in s
    ensures StrictWeakOrderOn(less, t)
  {}

  lemma WeakOrderOnFlip<T>(less: (T, T) -> bool, s: seq<T>)
    requires StrictWeakOrderOn(less, s)
    ensures StrictWeakOrderOn(Flip(less), s)
  {}

  lemma {:induction false} InsertSorted<T>(x: T, s: seq<T>, less: (T, T) -> bool)
    requires SortedBy(s, less)
    requires StrictWeakOrderOn(less, [x] + s)
    ensures SortedBy(Insert(x, s, less), less)
  {
    if s != [] {
      if less(s[0], x) {
        WeakOrderOnSubset(less, [x] + s, [x] + s[1..]);
        InsertSorted(x, s[1..], less);
        InsertPermutes(x, s[1..], less);
        var r := Insert(x, s[1..], less);
        forall k | 0 <= k < |r| ensures !less(r[k], s[0]) {
          assert r[k] in multiset(r);
          assert r[k] == x || r[k] in s[1..];
          if r[k] != x {
            var j :| 0 <= j < |s[1..]| && s[1..][j] == r[k];
            assert s[j + 1] == r[k];
          }
        }
      } else {
        forall j | 0 <= j < |s| ensures !less(s[j], x) {
          assert s[0] in [x] + s && s[j] in [x] + s;
          if j > 0 { assert !less(s[j], s[0]); }
        }
        var r := [x] + s;
        forall i, j | 0 <= i < j < |r| ensures !less(r[j], r[i]) {
          if i > 0 { assert r[j] == s[j - 1] && r[i] == s[i - 1]; }
        }
      }
    }
  }

  lemma {:induction false} SortSeqSorted<T>(s: seq<T>, less: (T, T) -> bool)
    requires StrictWeakOrderOn(less, s)
    ensures SortedBy(SortSeq(s, less), less)
  {
    if s != [] {
      WeakOrderOnSubset(less, s, s[1..]);
      SortSeqSorted(s[1..], less);
      var r := SortSeq(s[1..], less);
      SortSeqPermutes(s[1..], less);
      forall y | y in [s[0]] + r ensures y in s {
        if y != s[0] { assert y in multiset(r); assert y in s[1..]; }
      }
      WeakOrderOnSubset(less, s, [s[0]] + r);
      InsertSorted(s[0], r, less);
    }
  }
  /** Inserting past a run of smaller elements keeps that run in front. */
  lemma {:induction false} InsertAfter<T>(x: T, s: seq<T>, k: nat, less: (T, T) -> bool)
    requires k <= |s|
    requires forall m :: 0 <= m < k ==> less(s[m], x)
    ensures Insert(x, s, less) == s[..k] + Insert(x, s[k..], less)
  {
    if k == 0 {
      assert s[..0] + s[0..] == s;
    } else {
      var r := s[1..];
      assert forall m :: 0 <= m < k - 1 ==> r[m] == s[m + 1];
      InsertAfter(x, r, k - 1, less);
      var tail := Insert(x, s[k..], less);
      assert r[k - 1..] == s[k..];
      calc {
        Insert(x, s, less);
        [s[0]] + Insert(x, r, less);
        [s[0]] + (r[..k - 1] + tail);
        ([s[0]] + r[..k - 1]) + tail;
        { assert s[..k] == [s[0]] + r[..k - 1]; }
        s[..k] + tail;
      }
    }
  }

  lemma Slices<T>(u: seq<T>, p: nat, q: nat)
    requires p <= q < |u|
    ensures u[p..] == u[p..q] + [u[q]] + u[q + 1..]
  {}

  /** `list.sort` on a list held in an array: every element, from the last
      to the first, is moved into the sorted run behind it. */
  method SortInPlace<T>(a: array<T>, less: (T, T) -> bool)
    modifies a
    ensures a[..] == SortSeq(old(a[..]), less)
  {
    ghost var s := a[..];
    var i := a.Length;
    while i > 0
      invariant 0 <= i <= a.Length
      invariant a[..i] == s[..i]
      invariant a[i..] == SortSeq(s[i..], less)
    {
      InsertBack(a, i, less);
      Slices(s, i - 1, i - 1);
      i := i - 1;
    }
  }

  /** One step of the sort: `a[i - 1]` moves right past the elements of
      the sorted run `a[i..]` that are smaller than it. */
  method InsertBack<T>(a: array<T>, i: nat, less: (T, T) -> bool)
    requires 0 < i <= a.Length
    modifies a
    ensures a[..i - 1] == old(a[..i - 1])
    ensures a[i - 1..] == Insert(old(a[i - 1]), old(a[i..]), less)
  {
    ghost var t := a[i..];
    var x := a[i - 1];
    var j := i;
    while j < a.Length && less(a[j], x)
      invariant i <= j <= a.Length
      invariant a[..i - 1] == old(a[..i - 1])
      invariant a[i - 1..j - 1] == t[..j - i]
      invariant a[j..] == t[j - i..]
      invariant forall m :: 0 <= m < j - i ==> less(t[m], x)
    {
      a[j - 1] := a[j];
      j := j + 1;
    }
    assert Insert(x, t[j - i..], less) == [x] + t[j - i..] by {
      if j < a.Length { assert t[j - i..][0] == a[j]; }
    }
    ghost var before := a[..];
    a[j - 1] := x;
    ghost var after := a[..];
    assert after == before[j - 1 := x];
    assert after[i - 1..j - 1] == before[i - 1..j - 1] == t[..j - i];
    assert after[j..] == before[j..] == t[j - i..];
    Slices(after, i - 1, j - 1);
    assert after[i - 1..] == t[..j - i] + ([x] + t[j - i..]);
    InsertAfter(x, t, j - i, less);
    assert after[..i - 1] == before[..i - 1];
  }
}

=== FILE: text.dfy ===
/** Python string operations used by the model: character classes, ASCII
    lower-casing, `strip`, `split`, `find`, `startswith`, `in`, code-point
    ordering of `str` and the decimal rendering and parsing of `int`. */
module Text {
  import opened Wrappers

  // ---------------------------------------------------------------------
  // Character classes

  predicate IsDigit(c: char) { '0' <= c <= '9' }
  predicate IsUpper(c: char) { 'A' <= c <= 'Z' }
  predicate IsLowerLetter(c: char) { 'a' <= c <= 'z' }

  /** The class `[a-zA-Z0-9]`. */
  predicate IsAsciiAlnum(c: char) { IsDigit(c) || IsUpper(c) || IsLowerLetter(c) }

  predicate IsAsciiString(s: string) { forall i :: 0 <= i < |s| ==> s[i] as int < 128 }

  /** The characters for which Python's `str.isspace` holds. */
  predicate IsWhitespace(c: char) {
    var n := c as int;
    || 0x09 <= n <= 0x0D || 0x1C <= n <= 0x20
    || n == 0x85 || n == 0xA0 || n == 0x1680
    || 0x2000 <= n <= 0x200A
    || n == 0x2028 || n == 0x2029 || n == 0x202F || n == 0x205F || n == 0x3000
  }

  /** `str.isdigit` restricted to ASCII digits: non-empty and all digits. */
  predicate AllDigits(s: string) { |s| > 0 && forall i :: 0 <= i < |s| ==> IsDigit(s[i]) }

  // ---------------------------------------------------------------------
  // Case mapping

  function Lower(c: char): char {
    if IsUpper(c) then (c as int + 32) as char else c
  }

  function LowerS(s: string): (r: string)
    ensures |r| == |s|
    ensures forall i :: 0 <= i < |s| ==> r[i] == Lower(s[i])
  {
    if s == [] then [] else [Lower(s[0])] + LowerS(s[1..])
  }

  lemma LowerIdempotent(c: char)
    ensures Lower(Lower(c)) == Lower(c)
  {}

  lemma LowerSAppend(a: string, b: string)
    ensures LowerS(a + b) == LowerS(a) + LowerS(b)
  {
    var l, r := LowerS(a + b), LowerS(a) + LowerS(b);
    assert |l| == |r|;
    forall i | 0 <= i < |l| ensures l[i] == r[i] {
      if i < |a| { assert (a + b)[i] == a[i]; } else { assert (a + b)[i] == b[i - |a|]; }
    }
  }

  // ---------------------------------------------------------------------
  // Prefixes, substrings, `find`

  predicate StartsWith(s: string, prefix: string) {
    |prefix| <= |s| && s[..|prefix|] == prefix
  }

  predicate OccursAt(needle: string, haystack: string, i: int) {
    0 <= i <= |haystack| - |needle| && haystack[i..i + |needle|] == needle
  }

  /** Python's `needle in haystack` on two strings. */
  predicate IsSubstring(needle: string, haystack: string) {
    exists i | 0 <= i <= |haystack| :: OccursAt(needle, haystack, i)
  }

  /** `s.find(c)`: the first index of `c`, or `None`. */
  function Find(s: string, c: char): (r: Option<nat>)
    ensures r.Some? ==> r.value < |s| && s[r.value] == c && c !in s[..r.value]
    ensures r.None? ==> c !in s
  {
    if s == [] then None
    else if s[0] == c then Some(0)
    else match Find(s[1..], c)
      case None => None
      case Some(k) => assert s[..k + 1] == [s[0]] + s[1..][..k]; Some(k + 1)
  }

  /** The index just after the last `/` of `path`, 0 when there is none. */
  function AfterLastSlash(path: string): (k: nat)
    ensures k <= |path|
    ensures k == 0 || path[k - 1] == '/'
    ensures '/' !in path[k..]
  {
    if path == [] then 0
    else if path[|path| - 1] == '/' then |path|
    else
      var k := AfterLastSlash(path[..|path| - 1]);
      assert path[k..] == path[..|path| - 1][k..] + [path[|path| - 1]];
      k
  }

  /** `os.path.basename`: everything after the last `/`. */
  function Basename(path: string): string {
    path[AfterLastSlash(path)..]
  }

  // ---------------------------------------------------------------------
  // `strip`

  function LStrip(s: string): (r: string)
    ensures |r| <= |s| && r == s[|s| - |r|..]
    ensures r == [] || !IsWhitespace(r[0])
    ensures forall i :: 0 <= i < |s| - |r| ==> IsWhitespace(s[i])
  {
    if s == [] then []
    else if IsWhitespace(s[0]) then LStrip(s[1..])
    else s
  }

  function RStrip(s: string): (r: string)
    ensures |r| <= |s| && r == s[..|r|]
    ensures r == [] || !IsWhitespace(r[|r| - 1])
    ensures forall i :: |r| <= i < |s| ==> IsWhitespace(s[i])
  {
    if s == [] then []
    else if IsWhitespace(s[|s| - 1]) then RStrip(s[..|s| - 1])
    else s
  }

  /** `str.strip()` with no argument. */
  function Strip(s: string): string {
    RStrip(LStrip(s))
  }

  /** Every character of `strip(s)` is a character of `s`. */
  lemma StripWithin(s: string)
    ensures forall c :: c in Strip(s) ==> c in s
  {
    var l := LStrip(s);
    var r := RStrip(l);
    forall c | c in r ensures c in s {
      var i :| 0 <= i < |r| && r[i] == c;
      assert l[i] == c;
      assert s[|s| - |l| + i] == c;
    }
  }

  lemma StripEmptyIffAllWhitespace(s: string)
    ensures Strip(s) == [] <==> forall i :: 0 <= i < |s| ==> IsWhitespace(s[i])
  {
    var l := LStrip(s);
    var d := |s| - |l|;
    assert forall i :: d <= i < |s| ==> s[i] == l[i - d];
    assert l == [] || !IsWhitespace(s[d]);
  }

  // ---------------------------------------------------------------------
  // `split` on single characters

  function CountWhere(s: string, isDelim: char -> bool): nat {
    if s == [] then 0 else (if isDelim(s[0]) then 1 else 0) + CountWhere(s[1..], isDelim)
  }

  function KeepWhere(s: string, keep: char -> bool): string {
    if s == [] then [] else (if keep(s[0]) then [s[0]] else []) + KeepWhere(s[1..], keep)
  }

  function Concat(parts: seq<string>): string {
    if parts == [] then [] else parts[0] + Concat(parts[1..])
  }

  /** Splitting on every single character for which `isDelim` holds, as
      Python's `str.split(sep)` with a one-character separator and
      `re.split` with a one-character class do: adjacent delimiters give
      empty parts, and the empty string gives one empty part. */
  function SplitWhere(s: string, isDelim: char -> bool): (parts: seq<string>)
    ensures |parts| >= 1
  {
    if s == [] then [[]]
    else
      var rest := SplitWhere(s[1..], isDelim);
      if isDelim(s[0]) then [[]] + rest else [[s[0]] + rest[0]] + rest[1..]
  }

  lemma {:induction false} SplitWhereCount(s: string, isDelim: char -> bool)
    ensures |SplitWhere(s, isDelim)| == CountWhere(s, isDelim) + 1
  {
    if s != [] { SplitWhereCount(s[1..], isDelim); }
  }

  lemma {:induction false} SplitWhereParts(s: string, isDelim: char -> bool)
    ensures forall p, c :: p in SplitWhere(s, isDelim) && c in p ==> !isDelim(c) && c in s
  {
    if s != [] {
      SplitWhereParts(s[1..], isDelim);
      var rest := SplitWhere(s[1..], isDelim);
      if !isDelim(s[0]) {
        forall p, c | p in SplitWhere(s, isDelim) && c in p ensures !isDelim(c) && c in s {
          if p == [s[0]] + rest[0] {
            assert rest[0] in rest;
            if c != s[0] { assert c in rest[0]; }
          } else {
            assert p in rest;
          }
        }
      }
    }
  }

  /** A string without delimiters is one part. */
  lemma {:induction false} SplitWhereNone(x: string, isDelim: char -> bool)
    requires forall i :: 0 <= i < |x| ==> !isDelim(x[i])
    ensures SplitWhere(x, isDelim) == [x]
  {
    if x != [] {
      SplitWhereNone(x[1..], isDelim);
      assert [x[0]] + x[1..] == x;
    }
  }

  /** A delimiter after a delimiter-free prefix ends the first part. */
  lemma {:induction false} SplitWhereJoin(x: string, d: char, y: string, isDelim: char -> bool)
    requires forall i :: 0 <= i < |x| ==> !isDelim(x[i])
    requires isDelim(d)
    ensures SplitWhere(x + [d] + y, isDelim) == [x] + SplitWhere(y, isDelim)
  {
    if x == [] {
      assert x + [d] + y == [d] + y;
      assert ([d] + y)[1..] == y;
    } else {
      var s := x + [d] + y;
      assert s[1..] == x[1..] + [d] + y;
      SplitWhereJoin(x[1..], d, y, isDelim);
      assert [x[0]] + x[1..] == x;
    }
  }

  lemma {:induction false} SplitWhereConcat(s: string, isDelim: char -> bool, keep: char -> bool)
    requires forall c :: keep(c) == !isDelim(c)
    ensures Concat(SplitWhere(s, isDelim)) == KeepWhere(s, keep)
  {
    if s != [] {
      SplitWhereConcat(s[1..], isDelim, keep);
      var rest := SplitWhere(s[1..], isDelim);
      if isDelim(s[0]) {
        assert ([[]] + rest)[1..] == rest;
      } else {
        var p := [[s[0]] + rest[0]] + rest[1..];
        assert p[1..] == rest[1..];
        assert Concat(rest) == rest[0] + Concat(rest[1..]);
      }
    }
  }

  // ---------------------------------------------------------------------
  // Ordering of `str`: lexicographic by code point

  predicate StrLess(a: string, b: string) {
    if a == [] then b != []
    else if b == [] then false
    else if a[0] != b[0] then a[0] < b[0]
    else StrLess(a[1..], b[1..])
  }

  lemma {:induction false} StrLessIrreflexive(a: string)
    ensures !StrLess(a, a)
  {
    if a != [] { StrLessIrreflexive(a[1..]); }
  }

  lemma {:induction false} StrLessTransitive(a: string, b: string, c: string)
    requires StrLess(a, b) && StrLess(b, c)
    ensures StrLess(a, c)
  {
    if a != [] && b != [] && c != [] && a[0] == b[0] == c[0] {
      StrLessTransitive(a[1..], b[1..], c[1..]);
    }
  }

  lemma {:induction false} StrLessTotal(a: string, b: string)
    ensures a == b || StrLess(a, b) || StrLess(b, a)
  {
    if a != [] && b != [] && a[0] == b[0] {
      StrLessTotal(a[1..], b[1..]);
      if a[1..] == b[1..] { assert a == [a[0]] + a[1..]; assert b == [b[0]] + b[1..]; }
    }
  }

  lemma StrLessAsymmetric(a: string, b: string)
    requires StrLess(a, b)
    ensures !StrLess(b, a)
  {
    if StrLess(b, a) { StrLessTransitive(a, b, a); StrLessIrreflexive(a); }
  }

  // ---------------------------------------------------------------------
  // `str(n)` and `int(s)` for non-negative decimal numbers

  function DigitChar(d: nat): char
    requires d < 10
  {
    ('0' as int + d) as char
  }

  function DigitValue(c: char): nat
    requires IsDigit(c)
  {
    c as int - '0' as int
  }

  /** `str(n)` for `n >= 0`: no sign, no leading zero. */
  function NatStr(n: nat): (s: string)
    ensures AllDigits(s)
    ensures s[0] == '0' ==> n == 0
  {
    if n < 10 then [DigitChar(n)] else NatStr(n / 10) + [DigitChar(n % 10)]
  }

  /** `int(s)` for a string of decimal digits. */
  function DigitsValue(s: string): nat
    requires forall i :: 0 <= i < |s| ==> IsDigit(s[i])
  {
    if s == [] then 0 else DigitsValue(s[..|s| - 1]) * 10 + DigitValue(s[|s| - 1])
  }

  lemma {:induction false} DigitsValueNatStr(n: nat)
    ensures DigitsValue(NatStr(n)) == n
  {
    if n >= 10 {
      DigitsValueNatStr(n / 10);
      var s := NatStr(n / 10) + [DigitChar(n % 10)];
      assert s[..|s| - 1] == NatStr(n / 10);
    }
  }
}

=== FILE: update.dfy ===
/** `Download` from workflow/update.py: a workflow file attached to a
    GitHub release, its ordering, its `dict` form and the selection of
    downloads from a releases listing; and `latest_download` from
    workflow/version.py, which picks one of them. */
module Updates {
  import opened Wrappers
  import opened Text
  import opened Sorting
  import opened Versions
  import opened Values

  /** What `util.match_workflow` finds in a file name: the matched
      extension (`group(0)`) and the Alfred version digits in it
      (`group(1)`, empty when absent). */
  datatype WorkflowMatch = WorkflowMatch(ext: string, alfred: string)

  /** `util.match_workflow`, which is not part of this model. */
  type MatchWorkflow = string -> Option<WorkflowMatch>

  datatype Download = Download(url: string, filename: string, version: Version, prerelease: bool)

  /** The `version` argument of the constructor: a `Version` or a string. */
  datatype VersionArg = GivenVersion(v: Version) | VersionString(s: string)

  /** `Download(url, filename, version, prerelease)`: a string version is
      parsed into a `Version`, and its `ValueError` propagates. */
  function NewDownload(url: string, filename: string, version: VersionArg, prerelease: bool): (r: Result<Download>)
    ensures r.Ok? ==> r.value.url == url && r.value.filename == filename && r.value.prerelease == prerelease
    ensures version.GivenVersion? ==> r.Ok? && r.value.version == version.v
    ensures version.VersionString? ==> (r.Ok? <==> Parse(version.s).Ok?)
    ensures version.VersionString? && r.Ok? ==> r.value.version == Parse(version.s).value
    ensures version.VersionString? && r.Ok? ==> WellFormed(r.value.version)
  {
    match version
    case GivenVersion(v) => Ok(Download(url, filename, v, prerelease))
    case VersionString(s) =>
      ParseWellFormed(s);
      match Parse(s)
      case Err(e) => Err(e)
      case Ok(v) => Ok(Download(url, filename, v, prerelease))
  }

  /** `Version("0")`. */
  const VersionZero := Version(0, 0, 0, "", "")

  lemma ParseZero(s: string)
    requires s == "0"
    ensures Parse(s) == Ok(VersionZero)
  {
    SplitWhereNone(s, IsDot);
    assert ParseDotted(s) == [Num(0)] by { assert DigitsValue(s) == 0; }
    ParseSplit(s, s, []);
  }

  /** `alfred_version`: the minimum Alfred version in the file extension,
      `Version("0")` when there is none. A version group that does not
      parse also gives `Version("0")`. */
  function AlfredVersion(d: Download, mw: MatchWorkflow): (v: Version)
    ensures mw(d.filename).None? || mw(d.filename).value.alfred == [] ==> v == VersionZero
    ensures mw(d.filename).Some? && Parse(mw(d.filename).value.alfred).Ok? ==>
              v == Parse(mw(d.filename).value.alfred).value
  {
    match mw(d.filename)
    case None => VersionZero
    case Some(m) =>
      if m.alfred == [] then VersionZero
      else match Parse(m.alfred)
        case Ok(v) => v
        case Err(_) => VersionZero
  }

  // ---------------------------------------------------------------------
  // `dict`, `from_dict` and `__eq__`

  /** The `dict` property. */
  function ToDict(d: Download): (m: map<string, Value>)
    ensures m.Keys == {"url", "filename", "version", "prerelease"}
    ensures m["version"] == String(ToString(d.version))
  {
    map["url" := String(d.url), "filename" := String(d.filename),
        "version" := String(ToString(d.version)), "prerelease" := Bool(d.prerelease)]
  }

  /** `Version(d["version"])` on a dictionary value. */
  function VersionValue(x: Value): (r: Result<Version>)
    ensures r.Ok? ==> x.String? && Parse(x.s) == Ok(r.value) && WellFormed(r.value)
    ensures x.String? ==> r == Parse(x.s)
  {
    if !x.String? then Err(Error(TypeError, "version is not a string"))
    else ParseWellFormed(x.s); Parse(x.s)
  }

  /** The constructor call once every key has been read. */
  function FromFields(url: Value, filename: Value, version: Version, prerelease: Value): (r: Result<Download>)
    ensures r.Ok? <==> url.String? && filename.String? && prerelease.Bool?
    ensures r.Ok? ==> r.value == Download(url.s, filename.s, version, prerelease.b)
  {
    if !url.String? || !filename.String? || !prerelease.Bool? then
      Err(Error(TypeError, "url, filename or prerelease of the wrong type"))
    else Ok(Download(url.s, filename.s, version, prerelease.b))
  }

  /** `from_dict(d)`: the four keys are read in keyword order, a missing one
      raising `KeyError`, and the version string is parsed. */
  function FromDict(m: map<string, Value>): (r: Result<Download>)
    ensures r.Ok? ==> "url" in m && "filename" in m && "version" in m && "prerelease" in m
    ensures r.Ok? ==> && m["url"] == String(r.value.url)
                      && m["filename"] == String(r.value.filename)
                      && m["prerelease"] == Bool(r.value.prerelease)
                      && m["version"].String?
                      && Parse(m["version"].s) == Ok(r.value.version)
    ensures r.Ok? ==> WellFormed(r.value.version)
    ensures "url" !in m ==> r == Err(Error(KeyError, "url"))
  {
    if "url" !in m then Err(Error(KeyError, "url"))
    else if "filename" !in m then Err(Error(KeyError, "filename"))
    else if "version" !in m then Err(Error(KeyError, "version"))
    else match VersionValue(m["version"])
      case Err(e) => Err(e)
      case Ok(v) =>
        if "prerelease" !in m then Err(Error(KeyError, "prerelease"))
        else FromFields(m["url"], m["filename"], v, m["prerelease"])
  }

  /** `from_dict(d.dict)` gives `d` back, build metadata included, for
      every download whose version was parsed. */
  lemma FromDictToDict(d: Download)
    requires WellFormed(d.version)
    ensures FromDict(ToDict(d)) == Ok(d)
  {
    ParseToString(d.version);
  }

  /** `__eq__`: all four fields, the versions by `Version.__eq__`. */
  predicate DownloadEq(a: Download, b: Download) {
    a.url == b.url && a.filename == b.filename && Eq(a.version, b.version) && a.prerelease == b.prerelease
  }

  /** Two parsed downloads with the same `dict` are the same download, and
      a download read back from its `dict` is `==` to it. */
  lemma ToDictInjective(a: Download, b: Download)
    requires WellFormed(a.version) && WellFormed(b.version)
    ensures ToDict(a) == ToDict(b) ==> a == b
    ensures FromDict(ToDict(a)).Ok? && DownloadEq(FromDict(ToDict(a)).value, a)
  {
    FromDictToDict(a);
    FromDictToDict(b);
  }

  // ---------------------------------------------------------------------
  // `__lt__`

  /** `__lt__`: by version, ties (by `__eq__`) broken by `alfred_version`. */
  predicate DownloadLess(a: Download, b: Download, mw: MatchWorkflow) {
    if !Eq(a.version, b.version) then Less(a.version, b.version)
    else Less(AlfredVersion(a, mw), AlfredVersion(b, mw))
  }

  function LessOf(mw: MatchWorkflow): (Download, Download) -> bool {
    (a: Download, b: Download) => DownloadLess(a, b, mw)
  }

  /** No download is less than itself and `<` never holds both ways. */
  lemma DownloadLessStrict(a: Download, b: Download, mw: MatchWorkflow)
    ensures !DownloadLess(a, a, mw)
    ensures DownloadLess(a, b, mw) ==> !DownloadLess(b, a, mw)
  {
    LessStrict(AlfredVersion(a, mw), AlfredVersion(b, mw));
    LessStrict(a.version, b.version);
  }

  /** A version and an Alfred version without suffixes. */
  predicate IsRelease(d: Download, mw: MatchWorkflow) {
    d.version.suffix == [] && AlfredVersion(d, mw).suffix == []
  }

  /** Between releases, `<` is the lexicographic order of (version
      numbers, Alfred version numbers). */
  lemma DownloadLessLexicographic(a: Download, b: Download, mw: MatchWorkflow)
    requires IsRelease(a, mw) && IsRelease(b, mw)
    ensures DownloadLess(a, b, mw) <==>
      || NumberLess(a.version, b.version)
      || (SameNumber(a.version, b.version) && NumberLess(AlfredVersion(a, mw), AlfredVersion(b, mw)))
  {
    LessByNumbers(a.version, b.version);
    LessByNumbers(AlfredVersion(a, mw), AlfredVersion(b, mw));
  }

  /** On releases `<` is a strict weak order, so sorting them is well
      defined. */
  lemma ReleasesWeakOrder(ds: seq<Download>, mw: MatchWorkflow)
    requires forall d | d in ds :: IsRelease(d, mw)
    ensures StrictWeakOrderOn(LessOf(mw), ds)
  {
    forall a, b | a in ds && b in ds
      ensures DownloadLess(a, b, mw) <==>
        || NumberLess(a.version, b.version)
        || (SameNumber(a.version, b.version) && NumberLess(AlfredVersion(a, mw), AlfredVersion(b, mw)))
    {
      DownloadLessLexicographic(a, b, mw);
    }
  }

  // ---------------------------------------------------------------------
  // `from_releases`

  /** The parts of a GitHub release that `from_releases` reads. */
  datatype Asset = Asset(url: string)
  datatype Release = Release(tag: string, prerelease: bool, assets: seq<Asset>)

  /** The downloads of the assets whose file name is a workflow file, in
      asset order. */
  function AssetDownloads(assets: seq<Asset>, version: Version, prerelease: bool,
                          mw: MatchWorkflow): (r: seq<Download>)
    ensures |r| <= |assets|
  {
    if assets == [] then []
    else
      var a := assets[|assets| - 1];
      var rest := AssetDownloads(assets[..|assets| - 1], version, prerelease, mw);
      if mw(Basename(a.url)).Some? then rest + [Download(a.url, Basename(a.url), version, prerelease)]
      else rest
  }

  /** The matched extensions of those assets, in the same order. */
  function AssetExts(assets: seq<Asset>, mw: MatchWorkflow): seq<string> {
    if assets == [] then []
    else
      var a := assets[|assets| - 1];
      var rest := AssetExts(assets[..|assets| - 1], mw);
      match mw(Basename(a.url))
      case Some(m) => rest + [m.ext]
      case None => rest
  }

  /** Some extension is matched by two or more assets. */
  predicate Ambiguous(exts: seq<string>) {
    exists e | e in exts :: multiset(exts)[e] > 1
  }

  /** What one release contributes: nothing for a tag that is not a
      `Version` or an ambiguous release, its workflow assets otherwise. */
  function ReleaseDownloads(r: Release, mw: MatchWorkflow): seq<Download> {
    match Parse(r.tag)
    case Err(_) => []
    case Ok(v) =>
      if Ambiguous(AssetExts(r.assets, mw)) then [] else AssetDownloads(r.assets, v, r.prerelease, mw)
  }

  /** The concatenation of `f` over `xs`, in order. */
  function FlatMap<A, B>(xs: seq<A>, f: A -> seq<B>): seq<B> {
    if xs == [] then [] else FlatMap(xs[..|xs| - 1], f) + f(xs[|xs| - 1])
  }

  lemma {:induction false} FlatMapMembers<A, B>(xs: seq<A>, f: A -> seq<B>, y: B)
    ensures y in FlatMap(xs, f) <==> exists k | 0 <= k < |xs| :: y in f(xs[k])
  {
    if xs != [] {
      var init := xs[..|xs| - 1];
      FlatMapMembers(init, f, y);
      assert forall k | 0 <= k < |init| :: init[k] == xs[k];
    }
  }

  /** The downloads of every release, in listing order. */
  function Collected(releases: seq<Release>, mw: MatchWorkflow): seq<Download> {
    FlatMap(releases, (r: Release) => ReleaseDownloads(r, mw))
  }

  /** `from_releases`: everything collected, sorted with `reverse=True`. */
  function FromReleasesSpec(releases: seq<Release>, mw: MatchWorkflow): seq<Download> {
    SortSeq(Collected(releases, mw), Flip(LessOf(mw)))
  }

  /** `d` is the download of asset `i` of release `k`, which has a valid
      tag and no two assets with the same extension. */
  predicate Offers(releases: seq<Release>, mw: MatchWorkflow, k: int, i: int, d: Download) {
    && 0 <= k < |releases|
    && 0 <= i < |releases[k].assets|
    && Parse(releases[k].tag).Ok?
    && !Ambiguous(AssetExts(releases[k].assets, mw))
    && var url := releases[k].assets[i].url;
       mw(Basename(url)).Some?
       && d == Download(url, Basename(url), Parse(releases[k].tag).value, releases[k].prerelease)
  }

  lemma {:induction false} AssetDownloadsMembers(assets: seq<Asset>, version: Version, prerelease: bool,
                                                 mw: MatchWorkflow, d: Download)
    ensures d in AssetDownloads(assets, version, prerelease, mw) <==>
      exists i | 0 <= i < |assets| ::
        mw(Basename(assets[i].url)).Some?
        && d == Download(assets[i].url, Basename(assets[i].url), version, prerelease)
  {
    if assets != [] {
      var init := assets[..|assets| - 1];
      AssetDownloadsMembers(init, version, prerelease, mw, d);
      assert forall i | 0 <= i < |init| :: init[i] == assets[i];
    }
  }

  lemma CollectedMembers(releases: seq<Release>, mw: MatchWorkflow, d: Download)
    ensures d in Collected(releases, mw) <==>
      exists k | 0 <= k < |releases| :: d in ReleaseDownloads(releases[k], mw)
  {
    FlatMapMembers(releases, (r: Release) => ReleaseDownloads(r, mw), d);
  }

  lemma ReleaseDownloadsMembers(releases: seq<Release>, mw: MatchWorkflow, k: int, d: Download)
    requires 0 <= k < |releases|
    ensures d in ReleaseDownloads(releases[k], mw) <==>
      exists i | 0 <= i < |releases[k].assets| :: Offers(releases, mw, k, i, d)
  {
    var r := releases[k];
    var p := Parse(r.tag);
    if p.Ok? && !Ambiguous(AssetExts(r.assets, mw)) {
      assert ReleaseDownloads(r, mw) == AssetDownloads(r.assets, p.value, r.prerelease, mw);
      AssetDownloadsMembers(r.assets, p.value, r.prerelease, mw, d);
      forall i | 0 <= i < |r.assets|
        ensures Offers(releases, mw, k, i, d) <==>
          mw(Basename(r.assets[i].url)).Some?
          && d == Download(r.assets[i].url, Basename(r.assets[i].url), p.value, r.prerelease)
      {}
    } else {
      assert ReleaseDownloads(r, mw) == [];
      forall i | 0 <= i < |r.assets| ensures !Offers(releases, mw, k, i, d) {}
    }
  }

  /** Exactly the offered downloads come out, each as often as it was
      collected. */
  lemma FromReleasesContents(releases: seq<Release>, mw: MatchWorkflow, d: Download)
    ensures multiset(FromReleasesSpec(releases, mw)) == multiset(Collected(releases, mw))
    ensures d in FromReleasesSpec(releases, mw) <==>
      exists k, i | 0 <= k < |releases| && 0 <= i < |releases[k].assets| :: Offers(releases, mw, k, i, d)
  {
    SortSeqPermutes(Collected(releases, mw), Flip(LessOf(mw)));
    assert d in FromReleasesSpec(releases, mw) <==> d in multiset(Collected(releases, mw));
    CollectedMembers(releases, mw, d);
    forall k | 0 <= k < |releases|
      ensures d in ReleaseDownloads(releases[k], mw) <==>
        exists i | 0 <= i < |releases[k].assets| :: Offers(releases, mw, k, i, d)
    {
      ReleaseDownloadsMembers(releases, mw, k, d);
    }
  }

  /** The result is sorted newest first whenever `<` is a strict weak
      order on the downloads, as it is when they are all releases. */
  lemma FromReleasesSorted(releases: seq<Release>, mw: MatchWorkflow)
    requires StrictWeakOrderOn(LessOf(mw), Collected(releases, mw))
    ensures SortedBy(FromReleasesSpec(releases, mw), Flip(LessOf(mw)))
  {
    WeakOrderOnFlip(LessOf(mw), Collected(releases, mw));
    SortSeqSorted(Collected(releases, mw), Flip(LessOf(mw)));
  }

  /** The inner loop of `from_releases` over one release's assets: the
      workflow downloads and the `dupes` counts of their extensions. */
  method ScanAssets(assets: seq<Asset>, version: Version, prerelease: bool, mw: MatchWorkflow)
    returns (dls: seq<Download>, dupes: map<string, nat>)
    ensures dls == AssetDownloads(assets, version, prerelease, mw)
    ensures forall e :: e in dupes <==> e in AssetExts(assets, mw)
    ensures forall e | e in dupes :: dupes[e] == multiset(AssetExts(assets, mw))[e]
  {
    dls, dupes := [], map[];
    for j := 0 to |assets|
      invariant dls == AssetDownloads(assets[..j], version, prerelease, mw)
      invariant forall e :: e in dupes <==> e in AssetExts(assets[..j], mw)
      invariant forall e | e in dupes :: dupes[e] == multiset(AssetExts(assets[..j], mw))[e]
    {
      assert assets[..j + 1][..j] == assets[..j];
      var url := assets[j].url;
      var filename := Basename(url);
      var m := mw(filename);
      if m.Some? {
        var ext := m.value.ext;
        dupes := dupes[ext := (if ext in dupes then dupes[ext] else 0) + 1];
        dls := dls + [Download(url, filename, version, prerelease)];
      }
    }
    assert assets[..|assets|] == assets;
  }

  /** The `for ext, n in dupes.items()` check, stopping at the first
      count above one. */
  method NoDupes(dupes: map<string, nat>) returns (valid: bool)
    ensures valid <==> forall e | e in dupes :: dupes[e] <= 1
  {
    valid := true;
    var keys := dupes.Keys;
    while keys != {}
      invariant keys <= dupes.Keys
      invariant forall e | e in dupes && e !in keys :: dupes[e] <= 1
      decreases keys
    {
      var e :| e in keys;
      if dupes[e] > 1 {
        valid := false;
        break;
      }
      keys := keys - {e};
    }
  }

  lemma AmbiguousByCounts(exts: seq<string>, dupes: map<string, nat>)
    requires forall e :: e in dupes <==> e in exts
    requires forall e | e in dupes :: dupes[e] == multiset(exts)[e]
    ensures Ambiguous(exts) <==> !(forall e | e in dupes :: dupes[e] <= 1)
  {}

  /** `from_releases(js)` on the already decoded releases. */
  method FromReleases(releases: seq<Release>, mw: MatchWorkflow) returns (downloads: seq<Download>)
    ensures downloads == FromReleasesSpec(releases, mw)
  {
    var collected := [];
    for k := 0 to |releases|
      invariant collected == Collected(releases[..k], mw)
    {
      assert releases[..k + 1][..k] == releases[..k];
      var release := releases[k];
      var parsed := ParseVersion(release.tag);
      if parsed.Err? {
        continue;
      }
      var dls, dupes := ScanAssets(release.assets, parsed.value, release.prerelease, mw);
      var valid := NoDupes(dupes);
      AmbiguousByCounts(AssetExts(release.assets, mw), dupes);
      if valid {
        collected := collected + dls;
      }
    }
    assert releases[..|releases|] == releases;
    var a := new Download[|collected|](i requires 0 <= i < |collected| => collected[i]);
    assert a[..] == collected;
    SortInPlace(a, Flip(LessOf(mw)));
    downloads := a[..];
  }

  // ---------------------------------------------------------------------
  // `latest_download` (workflow/version.py)

  /** Not a prerelease unless those are wanted, and for an Alfred version
      no newer than `limit`. */
  predicate Eligible(d: Download, limit: Option<Version>, prereleases: bool, mw: MatchWorkflow) {
    && (!d.prerelease || prereleases)
    && (limit.None? || !Gt(AlfredVersion(d, mw), limit.value))
  }

  /** The first eligible download. */
  function FirstEligible(ds: seq<Download>, limit: Option<Version>, prereleases: bool,
                         mw: MatchWorkflow): (r: Option<Download>)
    ensures r.Some? ==> exists i | 0 <= i < |ds| ::
      && ds[i] == r.value && Eligible(ds[i], limit, prereleases, mw)
      && forall j | 0 <= j < i :: !Eligible(ds[j], limit, prereleases, mw)
    ensures r.None? ==> forall j | 0 <= j < |ds| :: !Eligible(ds[j], limit, prereleases, mw)
  {
    if ds == [] then None
    else if Eligible(ds[0], limit, prereleases, mw) then Some(ds[0])
    else
      var r := FirstEligible(ds[1..], limit, prereleases, mw);
      assert forall j | 0 <= j < |ds| - 1 :: ds[1..][j] == ds[j + 1];
      if r.Some? then
        var i :| 0 <= i < |ds[1..]| && ds[1..][i] == r.value && Eligible(ds[1..][i], limit, prereleases, mw)
                 && forall j | 0 <= j < i :: !Eligible(ds[1..][j], limit, prereleases, mw);
        assert ds[i + 1] == r.value;
        r
      else r
  }

  /** The Alfred version to compare with: none for an empty string, the
      parsed version otherwise. */
  function AlfredLimit(alfredVersion: string): (r: Result<Option<Version>>)
    ensures alfredVersion == [] ==> r == Ok(None)
    ensures alfredVersion != [] ==> (r.Ok? <==> Parse(alfredVersion).Ok?)
    ensures alfredVersion != [] && r.Ok? ==> r.value == Some(Parse(alfredVersion).value)
  {
    if alfredVersion == [] then Ok(None)
    else match Parse(alfredVersion)
      case Err(e) => Err(e)
      case Ok(v) => Ok(Some(v))
  }

  /** `latest_download(dls, alfred_version, prereleases)`, with
      `alfredVersion` the argument or else the `alfred_version`
      environment variable: an unparsable Alfred version raises before
      anything happens; otherwise `dls` is sorted in place, newest first,
      and the first eligible download is returned. */
  method LatestDownload(dls: array<Download>, alfredVersion: string, prereleases: bool, mw: MatchWorkflow)
    returns (r: Result<Option<Download>>)
    modifies dls
    ensures AlfredLimit(alfredVersion).Err? ==>
              r == Err(AlfredLimit(alfredVersion).error) && dls[..] == old(dls[..])
    ensures AlfredLimit(alfredVersion).Ok? ==>
              && dls[..] == SortSeq(old(dls[..]), Flip(LessOf(mw)))
              && r == Ok(FirstEligible(dls[..], AlfredLimit(alfredVersion).value, prereleases, mw))
  {
    var limit := None;
    if alfredVersion != [] {
      var v := ParseVersion(alfredVersion);
      if v.Err? {
        return Err(v.error);
      }
      limit := Some(v.value);
    }
    SortInPlace(dls, Flip(LessOf(mw)));
    r := FirstEligibleIn(dls, limit, prereleases, mw);
  }

  /** The `for dl in dls` loop of `latest_download`. */
  method FirstEligibleIn(dls: array<Download>, limit: Option<Version>, prereleases: bool, mw: MatchWorkflow)
    returns (r: Result<Option<Download>>)
    ensures r == Ok(FirstEligible(dls[..], limit, prereleases, mw))
  {
    for i := 0 to dls.Length
      invariant FirstEligible(dls[..], limit, prereleases, mw) == FirstEligible(dls[i..], limit, prereleases, mw)
    {
      assert dls[i..][1..] == dls[i + 1..];
      var dl := dls[i];
      if dl.prerelease && !prereleases {
        continue;
      }
      if limit.Some? && Gt(AlfredVersion(dl, mw), limit.value) {
        continue;
      }
      return Ok(Some(dl));
    }
    return Ok(None);
  }
}

=== FILE: values.dfy ===
/** The Python values the feedback builders put into the dictionaries they
    hand to `json.dumps`, and Python's truth test on them. */
module Values {
  import opened Wrappers

  datatype Value =
    | Null
    | Bool(b: bool)
    | Int(i: int)
    | String(s: string)
    // an `Enum` member, such as `IconType.FILEPATH`, stored as it is
    | Member(name: string)
    | List(elems: seq<Value>)
    | Object(fields: map<string, Value>)

  /** `bool(v)`: `None`, `False`, `0` and empty strings and containers are
      false; everything else is true. */
  predicate Truthy(v: Value) {
    match v
    case Null => false
    case Bool(b) => b
    case Int(i) => i != 0
    case String(s) => s != []
    case Member(_) => true
    case List(elems) => elems != []
    case Object(fields) => fields != map[]
  }

  /** `Optional[str]` as a `Value`. */
  function OptString(s: Option<string>): (v: Value)
    ensures s.None? <==> v == Null
  {
    match s
    case None => Null
    case Some(x) => String(x)
  }
}

=== FILE: variables.dfy ===
/** `Variables` from workflow/variables.py: the `alfredworkflow` object a
    Run Script action prints to set workflow variables. */
module WorkflowVariables {
  import opened Wrappers
  import opened Values

  /** The mapping itself (`vars`), `arg` (a string or a list; `Null` is
      Python's `None`, the default) and `config`. */
  datatype Variables = Variables(vars: map<string, Value>, arg: Value, config: map<string, Value>)

  /** The inner object under `alfredworkflow`. */
  function Inner(v: Variables): (r: map<string, Value>)
    ensures ("variables" in r <==> v.vars != map[]) && (v.vars != map[] ==> r["variables"] == Object(v.vars))
    ensures ("config" in r <==> v.config != map[]) && (v.config != map[] ==> r["config"] == Object(v.config))
    ensures ("arg" in r <==> v.arg != Null) && (v.arg != Null ==> r["arg"] == v.arg)
    ensures forall k | k in r :: k in {"variables", "config", "arg"}
  {
    var o := if v.vars != map[] then map["variables" := Object(v.vars)] else map[];
    var o := if v.config != map[] then o["config" := Object(v.config)] else o;
    if v.arg != Null then o["arg" := v.arg] else o
  }

  /** `obj`: a single-key mapping. */
  function Obj(v: Variables): (r: map<string, Value>)
    ensures r.Keys == {"alfredworkflow"}
    ensures r["alfredworkflow"] == Object(Inner(v))
  {
    map["alfredworkflow" := Object(Inner(v))]
  }

  /** Reading a `Variables` back from its `obj`. */
  function FromObj(o: map<string, Value>): Option<Variables> {
    if "alfredworkflow" !in o || !o["alfredworkflow"].Object? then None
    else
      var inner := o["alfredworkflow"].fields;
      var vars := if "variables" in inner && inner["variables"].Object? then inner["variables"].fields else map[];
      var config := if "config" in inner && inner["config"].Object? then inner["config"].fields else map[];
      var arg := if "arg" in inner then inner["arg"] else Null;
      Some(Variables(vars, arg, config))
  }

  /** `obj` loses nothing: the variables, `config` and `arg` can be read
      back from it. */
  lemma FromObjObj(v: Variables)
    ensures FromObj(Obj(v)) == Some(v)
  {
    var inner := Inner(v);
    assert "variables" !in inner ==> v.vars == map[];
    assert "config" !in inner ==> v.config == map[];
  }

  /** `str(v)`, with `dumps` standing for `json.dumps`: the empty string
      when there are no variables, no config and a falsy `arg`; `arg`
      itself when it is a string; the JSON of `obj` otherwise. */
  function ToStr(v: Variables, dumps: Value -> string): (s: string)
    ensures v.vars == map[] && v.config == map[] && !Truthy(v.arg) ==> s == ""
    ensures v.vars == map[] && v.config == map[] && Truthy(v.arg) && v.arg.String? ==> s == v.arg.s
    ensures v.vars != map[] || v.config != map[] || (Truthy(v.arg) && !v.arg.String?) ==>
              s == dumps(Object(Obj(v)))
  {
    if v.vars == map[] && v.config == map[] && !Truthy(v.arg) then ""
    else if v.vars == map[] && v.config == map[] && v.arg.String? then v.arg.s
    else dumps(Object(Obj(v)))
  }

  /** When there is something besides `arg` to set, the printed text is
      JSON from which a decoder inverse to `dumps` recovers the variables,
      `config` and `arg` exactly. */
  lemma ToStrDecodes(v: Variables, dumps: Value -> string, loads: string -> Value)
    requires forall x :: loads(dumps(x)) == x
    requires v.vars != map[] || v.config != map[]
    ensures loads(ToStr(v, dumps)).Object?
    ensures FromObj(loads(ToStr(v, dumps)).fields) == Some(v)
  {
    FromObjObj(v);
  }
}

=== FILE: version.dfy ===
/** `Version` from workflow/version.py: parsing of "mostly semantic"
    version strings (`v` prefix, up to three dotted numbers, `-suffix`,
    `+build`), their comparison and rendering, and `build_api_url`. */
module Versions {
  import opened Wrappers
  import opened Text

  /** The parsed fields of a `Version`; `tuple` is the first four. */
  datatype Version = Version(major: nat, minor: nat, patch: nat, suffix: string, build: string)

  /** One part of `_parse_dotted_string`: an `int` for an all-digit part,
      the string itself otherwise. */
  datatype Part = Num(n: nat) | Str(s: string)

  predicate IsDot(c: char) { c == '.' }

  function ToPart(p: string): (r: Part)
    ensures r.Num? <==> AllDigits(p)
    ensures r.Str? ==> r.s == p
  {
    if AllDigits(p) then Num(DigitsValue(p)) else Str(p)
  }

  /** `_parse_dotted_string(s)`: `s.split(".")`, digit parts as `int`s. */
  function ParseDotted(s: string): (parts: seq<Part>)
    ensures |parts| == CountWhere(s, IsDot) + 1
    ensures |parts| == |SplitWhere(s, IsDot)|
    ensures forall i :: 0 <= i < |parts| ==> parts[i] == ToPart(SplitWhere(s, IsDot)[i])
  {
    SplitWhereCount(s, IsDot);
    var pieces := SplitWhere(s, IsDot);
    seq(|pieces|, i requires 0 <= i < |pieces| => ToPart(pieces[i]))
  }

  // ---------------------------------------------------------------------
  // Parsing

  predicate IsNumberChar(c: char) { IsDigit(c) || c == '.' }

  /** The length of the greedy `[0-9\.]*` run at the start of `s`. */
  function NumberPrefix(s: string): (n: nat)
    ensures n <= |s|
    ensures forall i :: 0 <= i < n ==> IsNumberChar(s[i])
    ensures n == |s| || !IsNumberChar(s[n])
  {
    if s == [] || !IsNumberChar(s[0]) then 0 else 1 + NumberPrefix(s[1..])
  }

  /** What `(.+)?` captures: the text up to the first newline. */
  function FirstLine(s: string): (r: string)
    ensures '\n' !in r
    ensures |r| <= |s| && r == s[..|r|]
    ensures '\n' !in s ==> r == s
  {
    match Find(s, '\n')
    case None => s
    case Some(i) => s[..i]
  }

  /** The text before the first `+` and the text after it. */
  function SplitBuild(tail: string): (r: (string, string))
    ensures '+' !in r.0
    ensures '+' in tail ==> tail == r.0 + ['+'] + r.1
    ensures '+' !in tail ==> r == (tail, [])
  {
    match Find(tail, '+')
    case None => (tail, [])
    case Some(i) =>
      assert tail == tail[..i] + [tail[i]] + tail[i + 1..];
      (tail[..i], tail[i + 1..])
  }

  /** The trailing-text step of `_parse`: after the first `+` is the build;
      a non-empty text before it must start with `-`, which is dropped.
      The result is `(suffix, build)`. */
  function ParseTail(tail: string): (r: Result<(string, string)>)
    ensures var (pre, build) := SplitBuild(tail);
      && (r.Ok? <==> pre == [] || pre[0] == '-')
      && (r.Ok? ==> r.value.1 == build && (if pre == [] then r.value.0 == [] else pre == ['-'] + r.value.0))
    ensures r.Ok? ==> '+' !in r.value.0
    ensures r.Ok? ==> forall c :: c in r.value.0 || c in r.value.1 ==> c in tail
    ensures r.Err? ==> r.error.kind == ValueError
  {
    var (pre, build) := SplitBuild(tail);
    if pre == [] then Ok(([], build))
    else if pre[0] != '-' then Err(Error(ValueError, "suffix must start with - : " + pre))
    else
      assert pre == ['-'] + pre[1..];
      Ok((pre[1..], build))
  }

  /** The number step of `_parse` on the dotted parts: major, then minor
      and patch defaulting to 0, and no fourth part. */
  function NumberFields(parts: seq<Part>, vstr: string): (r: Result<(nat, nat, nat)>)
    requires |parts| > 0
    ensures r.Err? ==> r.error.kind == ValueError
    ensures |parts| > 3 ==> r.Err?
    ensures r.Ok? <==> |parts| <= 3 && forall i :: 0 <= i < |parts| ==> parts[i].Num?
    ensures r.Ok? ==> parts[0] == Num(r.value.0)
    ensures r.Ok? ==> if |parts| > 1 then parts[1] == Num(r.value.1) else r.value.1 == 0
    ensures r.Ok? ==> if |parts| > 2 then parts[2] == Num(r.value.2) else r.value.2 == 0
  {
    if |parts| > 3 then Err(Error(ValueError, "version number too long: " + vstr))
    else if exists i | 0 <= i < |parts| :: parts[i].Str? then
      Err(Error(ValueError, "empty version number part: " + vstr))
    else
      Ok((parts[0].n, if |parts| > 1 then parts[1].n else 0, if |parts| > 2 then parts[2].n else 0))
  }

  /** `vstr` without one leading `v`. */
  function Unprefixed(vstr: string): (body: string)
    ensures |body| <= |vstr|
  {
    if vstr != [] && vstr[0] == 'v' then vstr[1..] else vstr
  }

  /** `Version(vstr)`: the constructor's falsy check, then `_parse`. */
  function Parse(vstr: string): (r: Result<Version>)
    ensures vstr == [] ==> r.Err? && r.error.kind == ValueError
    ensures r.Ok? ==> Unprefixed(vstr) != [] && IsDigit(Unprefixed(vstr)[0])
    ensures vstr != [] && (Unprefixed(vstr) == [] || !IsDigit(Unprefixed(vstr)[0])) ==>
              r.Err? && r.error.kind == ValueError
    ensures r.Err? ==> r.error.kind == ValueError
    ensures vstr != [] && Unprefixed(vstr) != [] && IsDigit(Unprefixed(vstr)[0]) ==>
              var body := Unprefixed(vstr);
              var n := NumberPrefix(body);
              var numbers := NumberFields(ParseDotted(body[..n]), vstr);
              var tail := ParseTail(FirstLine(body[n..]));
              && (r.Ok? <==> numbers.Ok? && tail.Ok?)
              && (r.Ok? ==> r.value == Version(numbers.value.0, numbers.value.1, numbers.value.2,
                                               tail.value.0, tail.value.1))
  {
    if vstr == [] then Err(Error(ValueError, "invalid version number: ''"))
    else
      var body := Unprefixed(vstr);
      if body == [] || !IsDigit(body[0]) then Err(Error(ValueError, "invalid version number: " + vstr))
      else
        var n := NumberPrefix(body);
        match NumberFields(ParseDotted(body[..n]), vstr)
        case Err(e) => Err(e)
        case Ok(t) =>
          match ParseTail(FirstLine(body[n..]))
          case Err(e) => Err(e)
          case Ok(sb) => Ok(Version(t.0, t.1, t.2, sb.0, sb.1))
  }

  /** `_parse` as it runs: the number fields are popped from the dotted
      parts one after another, then the trailing text is taken apart. */
  method ParseVersion(vstr: string) returns (r: Result<Version>)
    ensures r == Parse(vstr)
  {
    if vstr == [] {
      return Err(Error(ValueError, "invalid version number: ''"));
    }
    var body := if vstr[0] == 'v' then vstr[1..] else vstr;
    if body == [] || !IsDigit(body[0]) {
      return Err(Error(ValueError, "invalid version number: " + vstr));
    }
    var n := NumberPrefix(body);
    var numbers := PopNumbers(ParseDotted(body[..n]), vstr);
    if numbers.Err? {
      return Err(numbers.error);
    }
    var tail := ParseSuffix(FirstLine(body[n..]));
    if tail.Err? {
      return Err(tail.error);
    }
    var (major, minor, patch) := numbers.value;
    r := Ok(Version(major, minor, patch, tail.value.0, tail.value.1));
  }

  /** The `parts.pop(0)` steps of `_parse`. */
  method PopNumbers(parts: seq<Part>, vstr: string) returns (r: Result<(nat, nat, nat)>)
    requires |parts| > 0
    ensures r == NumberFields(parts, vstr)
  {
    var rest := parts;
    var major, minor, patch := rest[0], Num(0), Num(0);
    rest := rest[1..];
    if |rest| > 0 {
      minor := rest[0];
      rest := rest[1..];
    }
    if |rest| > 0 {
      patch := rest[0];
      rest := rest[1..];
    }
    if |rest| != 0 {
      return Err(Error(ValueError, "version number too long: " + vstr));
    }
    assert |parts| == 1 ==> parts == [major];
    assert |parts| == 2 ==> parts == [major, minor];
    assert |parts| == 3 ==> parts == [major, minor, patch];
    if major.Str? || minor.Str? || patch.Str? {
      return Err(Error(ValueError, "empty version number part: " + vstr));
    }
    r := Ok((major.n, minor.n, patch.n));
  }

  /** The `if suffix:` block of `_parse`. */
  method ParseSuffix(text: string) returns (r: Result<(string, string)>)
    ensures r == ParseTail(text)
  {
    var suffix, sfx, build := text, "", "";
    if suffix != [] {
      match Find(suffix, '+') {
        case Some(idx) =>
          build := suffix[idx + 1..];
          suffix := suffix[..idx];
        case None =>
      }
      if suffix != [] {
        if suffix[0] != '-' {
          return Err(Error(ValueError, "suffix must start with - : " + suffix));
        }
        sfx := suffix[1..];
      }
    }
    r := Ok((sfx, build));
  }

  // ---------------------------------------------------------------------
  // Rendering and the round trip

  /** `str(version)`: `M.m.p`, then `-suffix` and `+build` when non-empty. */
  function ToString(v: Version): string {
    NumberText(v) + TailText(v)
  }

  function NumberText(v: Version): string {
    NatStr(v.major) + "." + NatStr(v.minor) + "." + NatStr(v.patch)
  }

  function TailText(v: Version): string {
    (if v.suffix != [] then "-" + v.suffix else "") + (if v.build != [] then "+" + v.build else "")
  }

  /** What every parsed version satisfies: the suffix holds no `+` and
      neither suffix nor build holds a newline. */
  predicate WellFormed(v: Version) {
    '+' !in v.suffix && '\n' !in v.suffix && '\n' !in v.build
  }

  lemma ParseWellFormed(vstr: string)
    ensures Parse(vstr).Ok? ==> WellFormed(Parse(vstr).value)
  {
    if Parse(vstr).Ok? {
      var body := Unprefixed(vstr);
      var n := NumberPrefix(body);
      var line := FirstLine(body[n..]);
      var sb := ParseTail(line).value;
      assert Parse(vstr).value.suffix == sb.0 && Parse(vstr).value.build == sb.1;
    }
  }

  lemma {:induction false} NumberPrefixOf(x: string, y: string)
    requires forall i :: 0 <= i < |x| ==> IsNumberChar(x[i])
    requires y == [] || !IsNumberChar(y[0])
    ensures NumberPrefix(x + y) == |x|
  {
    if x != [] {
      assert (x + y)[1..] == x[1..] + y;
      NumberPrefixOf(x[1..], y);
    } else {
      assert x + y == y;
    }
  }

  lemma NatPart(n: nat)
    ensures ToPart(NatStr(n)) == Num(n)
  {
    DigitsValueNatStr(n);
  }

  lemma NumberTextPieces(v: Version)
    ensures SplitWhere(NumberText(v), IsDot) == [NatStr(v.major), NatStr(v.minor), NatStr(v.patch)]
  {
    var a, b, c := NatStr(v.major), NatStr(v.minor), NatStr(v.patch);
    assert NumberText(v) == a + ['.'] + (b + ['.'] + c);
    SplitWhereJoin(a, '.', b + ['.'] + c, IsDot);
    SplitWhereJoin(b, '.', c, IsDot);
    SplitWhereNone(c, IsDot);
  }

  lemma NumberTextParts(v: Version)
    ensures ParseDotted(NumberText(v)) == [Num(v.major), Num(v.minor), Num(v.patch)]
  {
    NumberTextPieces(v);
    var parts := ParseDotted(NumberText(v));
    NatPart(v.major);
    NatPart(v.minor);
    NatPart(v.patch);
    assert parts[0] == Num(v.major) && parts[1] == Num(v.minor) && parts[2] == Num(v.patch);
  }

  lemma TailTextParses(v: Version)
    requires WellFormed(v)
    ensures ParseTail(FirstLine(TailText(v))) == Ok((v.suffix, v.build))
  {
    var t := TailText(v);
    assert '\n' !in t by {
      forall i | 0 <= i < |t| ensures t[i] != '\n' {
        var s := if v.suffix != [] then "-" + v.suffix else "";
        if i < |s| { if i > 0 { assert t[i] == v.suffix[i - 1]; } }
        else { if i > |s| { assert t[i] == v.build[i - |s| - 1]; } }
      }
    }
    var s := if v.suffix != [] then "-" + v.suffix else "";
    assert '+' !in s;
    if v.build != [] {
      assert t == s + ['+'] + v.build;
      assert SplitBuild(t).0 + ['+'] + SplitBuild(t).1 == s + ['+'] + v.build;
      SplitAtFirst(SplitBuild(t).0, SplitBuild(t).1, s, v.build);
    } else {
      assert t == s;
    }
  }

  /** Two ways of splitting a string at a `+` agree when neither left side
      holds a `+`. */
  lemma SplitAtFirst(a: string, b: string, c: string, d: string)
    requires '+' !in a && '+' !in c
    requires a + ['+'] + b == c + ['+'] + d
    ensures a == c && b == d
  {
    var s := a + ['+'] + b;
    assert s[|a|] == '+' && s[|c|] == '+';
    assert |a| == |c|;
    assert a == s[..|a|] && c == s[..|c|];
    assert b == s[|a| + 1..] && d == s[|c| + 1..];
  }

  lemma NumberTextChars(v: Version)
    ensures |NumberText(v)| > 0 && IsDigit(NumberText(v)[0])
    ensures forall i :: 0 <= i < |NumberText(v)| ==> IsNumberChar(NumberText(v)[i])
  {
    var a, b, c := NatStr(v.major), NatStr(v.minor), NatStr(v.patch);
    var x := NumberText(v);
    assert x == a + ['.'] + b + ['.'] + c;
    forall i | 0 <= i < |x| ensures IsNumberChar(x[i]) {
      if i < |a| { assert x[i] == a[i]; }
      else if i == |a| {}
      else if i < |a| + 1 + |b| { assert x[i] == b[i - |a| - 1]; }
      else if i == |a| + 1 + |b| {}
      else { assert x[i] == c[i - |a| - |b| - 2]; }
    }
    assert x[0] == a[0];
  }

  /** `Version(str(v))` reproduces every field of a parsed version. */
  lemma ParseToString(v: Version)
    requires WellFormed(v)
    ensures Parse(ToString(v)) == Ok(v)
  {
    var s := ToString(v);
    var x, y := NumberText(v), TailText(v);
    NumberTextChars(v);
    assert y == [] || y[0] == '-' || y[0] == '+';
    NumberPrefixOf(x, y);
    assert Unprefixed(s) == s by { assert s[0] == x[0]; }
    assert s[..|x|] == x && s[|x|..] == y;
    ParseNumberText(v, s);
    TailTextParses(v);
  }

  lemma ParseNumberText(v: Version, vstr: string)
    ensures NumberFields(ParseDotted(NumberText(v)), vstr) == Ok((v.major, v.minor, v.patch))
  {
    var parts := ParseDotted(NumberText(v));
    NumberTextParts(v);
    assert !exists i | 0 <= i < |parts| :: parts[i].Str?;
  }

  /** Rendering and re-parsing any parsed version gives it back. */
  lemma RoundTrip(vstr: string)
    requires Parse(vstr).Ok?
    ensures Parse(ToString(Parse(vstr).value)) == Parse(vstr)
  {
    ParseWellFormed(vstr);
    ParseToString(Parse(vstr).value);
  }

  // ---------------------------------------------------------------------
  // Comparison

  /** `__eq__`: the `tuple` (major, minor, patch, suffix); the build is not
      compared. */
  predicate Eq(a: Version, b: Version) {
    a.major == b.major && a.minor == b.minor && a.patch == b.patch && a.suffix == b.suffix
  }

  predicate SameNumber(a: Version, b: Version) {
    a.major == b.major && a.minor == b.minor && a.patch == b.patch
  }

  /** `tuple[:3] < tuple[:3]`: lexicographic on the three numbers. */
  predicate NumberLess(a: Version, b: Version) {
    || a.major < b.major
    || (a.major == b.major && a.minor < b.minor)
    || (a.major == b.major && a.minor == b.minor && a.patch < b.patch)
  }

  /** `str(p)`: what a part becomes when compared with a part of the other
      type. */
  function PartText(p: Part): string {
    match p
    case Num(n) => NatStr(n)
    case Str(s) => s
  }

  predicate PartSame(x: Part, y: Part) {
    if x.Num? && y.Num? then x.n == y.n else PartText(x) == PartText(y)
  }

  predicate PartLess(x: Part, y: Part) {
    if x.Num? && y.Num? then x.n < y.n else StrLess(PartText(x), PartText(y))
  }

  /** The `zip_longest` loop of `__lt__`: equal parts are skipped, the
      first differing pair decides, a list that runs out first is smaller,
      and two lists that run out together are not. */
  predicate PartsLess(s: seq<Part>, o: seq<Part>) {
    if s == [] then o != []
    else if o == [] then false
    else if PartSame(s[0], o[0]) then PartsLess(s[1..], o[1..])
    else PartLess(s[0], o[0])
  }

  /** `__lt__`. */
  predicate Less(a: Version, b: Version) {
    if NumberLess(a, b) then true
    else if !SameNumber(a, b) then false
    else if a.suffix != [] && b.suffix == [] then true
    else if b.suffix != [] && a.suffix == [] then false
    else PartsLess(ParseDotted(a.suffix), ParseDotted(b.suffix))
  }

  /** `__gt__`, `__le__` and `__ge__`, all through `__lt__`. */
  predicate Gt(a: Version, b: Version) { Less(b, a) }
  predicate Le(a: Version, b: Version) { !Less(b, a) }
  predicate Ge(a: Version, b: Version) { !Less(a, b) }

  lemma PartSameSymmetric(x: Part, y: Part)
    ensures PartSame(x, y) == PartSame(y, x)
  {}

  lemma PartLessAsymmetric(x: Part, y: Part)
    requires PartLess(x, y)
    ensures !PartLess(y, x)
  {
    if !(x.Num? && y.Num?) { StrLessAsymmetric(PartText(x), PartText(y)); }
  }

  lemma {:induction false} PartsLessIrreflexive(s: seq<Part>)
    ensures !PartsLess(s, s)
  {
    if s != [] { PartsLessIrreflexive(s[1..]); }
  }

  lemma {:induction false} PartsLessAsymmetric(s: seq<Part>, o: seq<Part>)
    requires PartsLess(s, o)
    ensures !PartsLess(o, s)
  {
    if s != [] && o != [] {
      if PartSame(s[0], o[0]) {
        PartsLessAsymmetric(s[1..], o[1..]);
      } else {
        PartLessAsymmetric(s[0], o[0]);
      }
    }
  }

  /** No version is less than itself, and `<` never holds both ways. */
  lemma LessStrict(a: Version, b: Version)
    ensures !Less(a, a)
    ensures Less(a, b) ==> !Less(b, a)
  {
    PartsLessIrreflexive(ParseDotted(a.suffix));
    if Less(a, b) && SameNumber(a, b) && (a.suffix == [] <==> b.suffix == []) {
      PartsLessAsymmetric(ParseDotted(a.suffix), ParseDotted(b.suffix));
    }
  }

  /** Equal versions (builds aside) are neither `<` nor `>` each other,
      and the derived comparisons agree with `<`. */
  lemma ComparisonsAgree(a: Version, b: Version)
    ensures Eq(a, b) ==> !Less(a, b) && !Gt(a, b) && Le(a, b) && Ge(a, b)
    ensures Less(a, b) ==> Le(a, b) && !Ge(a, b) && !Gt(a, b) && Gt(b, a)
  {
    LessStrict(a, b);
    LessStrict(b, a);
    if Eq(a, b) {
      PartsLessIrreflexive(ParseDotted(a.suffix));
    }
  }

  /** Without suffixes `<` is the order of the numbers alone: a strict
      total order with `__eq__` as its equality. A suffixed version comes
      before the unsuffixed one with the same numbers. */
  lemma LessByNumbers(a: Version, b: Version)
    ensures a.suffix == [] && b.suffix == [] ==> (Less(a, b) <==> NumberLess(a, b))
    ensures a.suffix == [] && b.suffix == [] ==> (Less(a, b) || Less(b, a) || Eq(a, b))
    ensures SameNumber(a, b) && a.suffix != [] && b.suffix == [] ==> Less(a, b) && !Less(b, a)
  {
    if a.suffix == [] && b.suffix == [] {
      assert ParseDotted([]) == [Str([])];
      PartsLessIrreflexive([Str([])]);
    }
  }

  /** `<` is not transitive once suffix parts mix numbers and text:
      1.0.0-10 < 1.0.0-2a < 1.0.0-9 < 1.0.0-10, because a number is compared
      with a text part as a string. */
  lemma LessCycle()
    ensures var v10, v2a, v9 := Version(1, 0, 0, "10", ""), Version(1, 0, 0, "2a", ""), Version(1, 0, 0, "9", "");
      Less(v10, v2a) && Less(v2a, v9) && Less(v9, v10)
  {
    assert ParseDotted("10") == [Num(10)] by {
      SplitWhereNone("10", IsDot);
      assert DigitsValue("10") == 10 by { assert "10"[..1] == "1"; }
    }
    assert ParseDotted("9") == [Num(9)] by { SplitWhereNone("9", IsDot); }
    assert ParseDotted("2a") == [Str("2a")] by {
      SplitWhereNone("2a", IsDot);
      assert !IsDigit("2a"[1]);
    }
    assert NatStr(10) == "10" by { assert NatStr(1) == "1"; }
    assert NatStr(9) == "9";
  }

  /** One leading `v` is dropped before the number is read; only the
      error message still shows it. */
  lemma StripsOneV(s: string)
    requires s == [] || s[0] != 'v'
    ensures Parse("v" + s).Ok? == Parse(s).Ok?
    ensures Parse(s).Ok? ==> Parse("v" + s) == Parse(s)
  {
    assert ("v" + s)[1..] == s;
    if s != [] && IsDigit(s[0]) {
      var n := NumberPrefix(s);
      var parts := ParseDotted(s[..n]);
      assert NumberFields(parts, "v" + s).Ok? == NumberFields(parts, s).Ok?;
      if NumberFields(parts, s).Ok? {
        assert NumberFields(parts, "v" + s) == NumberFields(parts, s);
      }
    }
  }

  /** `Parse` of a string split into its number run `x` and the rest `y`. */
  lemma ParseSplit(vstr: string, x: string, y: string)
    requires vstr == x + y && x != [] && IsDigit(x[0])
    requires forall i :: 0 <= i < |x| ==> IsNumberChar(x[i])
    requires y == [] || !IsNumberChar(y[0])
    ensures NumberFields(ParseDotted(x), vstr).Ok? && ParseTail(FirstLine(y)).Ok? ==>
      var t, sb := NumberFields(ParseDotted(x), vstr).value, ParseTail(FirstLine(y)).value;
      Parse(vstr) == Ok(Version(t.0, t.1, t.2, sb.0, sb.1))
  {
    NumberPrefixOf(x, y);
    assert vstr[0] == x[0];
    assert vstr[..|x|] == x && vstr[|x|..] == y;
  }

  /** Any run of digits, leading zeros included, parses as the major
      number alone: minor and patch default to 0, and there is no suffix
      or build. */
  lemma ParseDigits(s: string)
    requires AllDigits(s)
    ensures Parse(s) == Ok(Version(DigitsValue(s), 0, 0, "", ""))
  {
    SplitWhereNone(s, IsDot);
    assert ParseDotted(s) == [Num(DigitsValue(s))];
    assert s + [] == s;
    ParseSplit(s, s, []);
  }

  lemma RenderOneOneOne(v: Version)
    requires v == Version(1, 1, 1, "", "")
    ensures ToString(v) == "1.1.1"
  {
    var one := NatStr(1);
    assert one == ['1'] by { assert DigitChar(1) == '1'; }
    assert TailText(v) == [];
    assert NumberText(v) == one + "." + one + "." + one;
  }

  lemma ParseOneOneOne(t: string)
    requires t == "1.1.1"
    ensures Parse(t) == Ok(Version(1, 1, 1, "", ""))
  {
    var v := Version(1, 1, 1, "", "");
    ParseToString(v);
    RenderOneOneOne(v);
  }

  /** `Version('v1.1.1').tuple == (1, 1, 1, '')`. */
  lemma DocExampleV111(s: string)
    requires s == "v1.1.1"
    ensures Parse(s) == Ok(Version(1, 1, 1, "", ""))
  {
    var t := "1.1.1";
    ParseOneOneOne(t);
    assert s == "v" + t;
    StripsOneV(t);
  }

  /** `Version('2.0').tuple == (2, 0, 0, '')`. */
  lemma DocExample20(s: string)
    requires s == "2.0"
    ensures Parse(s) == Ok(Version(2, 0, 0, "", ""))
  {
    SplitWhereJoin("2", '.', "0", IsDot);
    SplitWhereNone("0", IsDot);
    assert "2" + ['.'] + "0" == s;
    assert SplitWhere(s, IsDot) == ["2", "0"];
    assert DigitsValue("2") == 2 && DigitsValue("0") == 0;
    assert ParseDotted(s) == [Num(2), Num(0)];
    ParseSplit(s, s, []);
  }

  lemma DottedThreeOne(x: string)
    requires x == "3.1"
    ensures ParseDotted(x) == [Num(3), Num(1)]
  {
    SplitWhereJoin("3", '.', "1", IsDot);
    SplitWhereNone("1", IsDot);
    assert "3" + ['.'] + "1" == x;
    assert SplitWhere(x, IsDot) == ["3", "1"];
    assert DigitsValue("3") == 3 && DigitsValue("1") == 1;
  }

  lemma TailBeta(y: string)
    requires y == "-beta"
    ensures ParseTail(FirstLine(y)) == Ok(("beta", ""))
  {
    assert FirstLine(y) == y;
    assert SplitBuild(y) == (y, []);
  }

  lemma FieldsThreeOne(parts: seq<Part>, s: string)
    requires parts == [Num(3), Num(1)]
    ensures NumberFields(parts, s) == Ok((3, 1, 0))
  {
  }

  /** `Version('3.1-beta').tuple == (3, 1, 0, 'beta')`. */
  lemma DocExample31Beta(s: string)
    requires s == "3.1-beta"
    ensures Parse(s) == Ok(Version(3, 1, 0, "beta", ""))
  {
    var x, y := s[..3], s[3..];
    assert x == "3.1" && y == "-beta";
    DottedThreeOne(x);
    TailBeta(y);
    FieldsThreeOne(ParseDotted(x), s);
    ParseSplit(s, x, y);
  }

  /** `Version('1.0.1') > Version('0.0.1')`. */
  lemma DocExampleGreater()
    ensures Gt(Version(1, 0, 1, "", ""), Version(0, 0, 1, "", ""))
  {
    LessByNumbers(Version(0, 0, 1, "", ""), Version(1, 0, 1, "", ""));
  }

  // ---------------------------------------------------------------------
  // `build_api_url`

  predicate IsSlash(c: char) { c == '/' }

  /** `RELEASES_BASE` split around its `{}`. */
  const RELEASES_BASE_HEAD := "https://api.github.com/repos/"
  const RELEASES_BASE_TAIL := "/releases"

  /** `build_api_url(repo)`: the releases endpoint of a `user/repo` slug. */
  function BuildApiUrl(repo: string): (r: Result<string>)
    ensures r.Ok? <==> CountWhere(repo, IsSlash) == 1
    ensures r.Ok? ==> r.value == RELEASES_BASE_HEAD + repo + RELEASES_BASE_TAIL
    ensures r.Err? ==> r.error.kind == ValueError
  {
    SplitWhereCount(repo, IsSlash);
    if |SplitWhere(repo, IsSlash)| != 2 then Err(Error(ValueError, "invalid GitHub repo: " + repo))
    else Ok(RELEASES_BASE_HEAD + repo + RELEASES_BASE_TAIL)
  }
}

=== FILE: workflow.dfy ===
/** The feedback side of `Workflow` in workflow/workflow.py: workflow
    variables, `rerun`, the list of items and its JSON object, and the
    session-scoped cache names. */
module Workflows {
  import opened Wrappers
  import opened Text
  import opened Values
  import opened Modifiers
  import opened Items

  /** The environment variable, and workflow variable, holding the
      session id. */
  const SESSION_VAR := "_WF_SESSION_ID"

  const ICON_ROOT := "/System/Library/CoreServices/CoreTypes.bundle/Contents/Resources"
  const ICON_WARNING := ICON_ROOT + "/AlertCautionIcon.icns"

  const SESSION_MARK := "_wfsess-"

  /** `_session_prefix` for the session id `id`. */
  function SessionPrefix(id: string): (p: string)
    ensures StartsWith(p, SESSION_MARK)
    ensures |p| == |SESSION_MARK| + |id| + 1
    ensures p[|SESSION_MARK|..|SESSION_MARK| + |id|] == id && p[|p| - 1] == '-'
  {
    SESSION_MARK + id + "-"
  }

  /** `_mk_session_name(name)` for the session id `id`. */
  function SessionName(id: string, name: string): (r: string)
    ensures StartsWith(r, SessionPrefix(id)) && r[|SessionPrefix(id)|..] == name
  {
    SessionPrefix(id) + name
  }

  /** `_is_session_file` inside `clear_session_cache(current)`. */
  predicate IsSessionFile(filename: string, current: bool, id: string) {
    if current then StartsWith(filename, SESSION_MARK)
    else StartsWith(filename, SESSION_MARK) && !StartsWith(filename, SessionPrefix(id))
  }

  /** A name made for the current session is a session file, kept unless
      `current` is set. */
  lemma CurrentSessionFiles(id: string, name: string)
    ensures IsSessionFile(SessionName(id, name), true, id)
    ensures !IsSessionFile(SessionName(id, name), false, id)
  {
    var p := SessionPrefix(id);
    var r := SessionName(id, name);
    assert r[..|SESSION_MARK|] == p[..|SESSION_MARK|];
  }

  /** A name made for another session id of the same length (session ids
      are `uuid4().hex`) is always cleared. */
  lemma OtherSessionFiles(id: string, other: string, name: string)
    requires |other| == |id| && other != id
    ensures IsSessionFile(SessionName(other, name), false, id)
    ensures IsSessionFile(SessionName(other, name), true, id)
  {
    var r := SessionName(other, name);
    var p := SessionPrefix(other);
    var m := |SESSION_MARK|;
    assert r[..m] == p[..m];
    var q := SessionPrefix(id);
    assert r[m..m + |id|] == other;
    assert q[m..m + |id|] == id;
    assert r[..|q|][m..m + |id|] == r[m..m + |id|];
  }

  /** `icon or ICON_WARNING`. */
  function WarningIcon(icon: Option<string>): (r: string)
    ensures icon.Some? && icon.value != "" ==> r == icon.value
    ensures icon.None? || icon.value == "" ==> r == ICON_WARNING
  {
    if icon.Some? && icon.value != "" then icon.value else ICON_WARNING
  }

  /** The objects of a sequence of items, in order. */
  function ItemObjs(its: seq<Item>): (r: seq<Value>)
    reads set i | i in its, set i, m | i in its && m in i.modifiers.Values :: m
    ensures |r| == |its|
    ensures forall k | 0 <= k < |its| :: r[k] == Object(its[k].Obj())
  {
    if its == [] then [] else [Object(its[0].Obj())] + ItemObjs(its[1..])
  }

  class Workflow {
    var variables: map<string, Value>
    var rerun: int
    /** `_items`. */
    var items: seq<Item>
    /** `_session_id`; the empty string stands for `None`. */
    var sessionId: string

    /** `Workflow()`, with `envSessionId` the value of `_WF_SESSION_ID` in
        the environment (empty when unset). */
    constructor(envSessionId: string)
      ensures items == [] && rerun == 0 && sessionId == envSessionId
      ensures envSessionId == "" ==> variables == map[]
      ensures envSessionId != "" ==> variables == map[SESSION_VAR := String(envSessionId)]
    {
      variables := map[];
      rerun := 0;
      items := [];
      sessionId := envSessionId;
      new;
      if sessionId != "" {
        SetVar(SESSION_VAR, String(sessionId));
      }
    }

    /** `setvar(name, value)` (without `persist`). */
    method SetVar(name: string, value: Value)
      modifies this`variables
      ensures variables == old(variables)[name := value]
      ensures GetVar(name, None) == Some(value)
      ensures forall n | n != name :: GetVar(n, None) == old(GetVar(n, None))
    {
      variables := variables[name := value];
    }

    /** `getvar(name, default)`. */
    function GetVar(name: string, default: Option<Value>): (r: Option<Value>)
      reads this
      ensures name in variables ==> r == Some(variables[name])
      ensures name !in variables ==> r == default
    {
      Lookup(variables, name, default)
    }

    /** The `rerun` getter. */
    function Rerun(): int
      reads this
    {
      rerun
    }

    /** The `rerun` setter: the getter returns what was set. */
    method SetRerun(seconds: int)
      modifies this`rerun
      ensures Rerun() == seconds
    {
      rerun := seconds;
    }

    /** `add_item(...)`: one new item at the end, carrying a copy of the
        workflow variables. */
    method AddItem(title: string, subtitle: string, arg: Option<string>, autocomplete: Option<string>,
                   valid: bool, uid: Option<string>, icon: Option<string>, icontype: Option<string>,
                   itemType: Option<string>, largetext: Option<string>, copytext: Option<string>,
                   quicklookurl: Option<string>, match_: Option<string>)
      returns (item: Item)
      modifies this`items
      ensures fresh(item)
      ensures items == old(items) + [item]
      ensures item.variables == variables && item.modifiers == map[] && item.config == map[]
      ensures item.title == title && item.subtitle == subtitle && item.arg == arg
      ensures item.autocomplete == autocomplete && item.valid == valid && item.uid == uid
      ensures item.icon == icon && item.icontype == icontype && item.itemType == itemType
      ensures item.largetext == largetext && item.copytext == copytext
      ensures item.quicklookurl == quicklookurl && item.match_ == match_
    {
      item := new Item(title, subtitle, arg, autocomplete, match_, valid, uid, icon, icontype,
                       itemType, largetext, copytext, quicklookurl, map[], map[], map[]);
      item.variables := item.variables + variables;
      items := items + [item];
    }

    /** `obj`: the items in insertion order; `variables` exactly when there
        are some; `rerun` exactly when it is non-zero. */
    function Obj(): (r: map<string, Value>)
      reads this, set i | i in items, set i, m | i in items && m in i.modifiers.Values :: m
      ensures "items" in r && r["items"].List? && |r["items"].elems| == |items|
      ensures forall k | 0 <= k < |items| :: r["items"].elems[k] == Object(items[k].Obj())
      ensures ("variables" in r <==> variables != map[]) && (variables != map[] ==> r["variables"] == Object(variables))
      ensures ("rerun" in r <==> rerun != 0) && (rerun != 0 ==> r["rerun"] == Int(rerun))
      ensures forall k | k in r :: k in {"items", "variables", "rerun"}
    {
      var o := map["items" := List(ItemObjs(items))];
      var o := if variables != map[] then o["variables" := Object(variables)] else o;
      if rerun != 0 then o["rerun" := Int(rerun)] else o
    }

    /** `warn_empty(title, subtitle, icon)`: with no items, one warning item
        is added (with `ICON_WARNING` unless an icon is given); otherwise
        nothing changes. */
    method WarnEmpty(title: string, subtitle: string, icon: Option<string>) returns (r: Option<Item>)
      modifies this`items
      ensures old(items) != [] ==> r == None && items == old(items)
      ensures old(items) == [] ==> r.Some? && fresh(r.value) && items == [r.value]
      ensures old(items) == [] ==> && r.value.title == title && r.value.subtitle == subtitle
                                   && r.value.icon == Some(WarningIcon(icon)) && r.value.valid == false
                                   && r.value.variables == variables
    {
      if |items| != 0 {
        return None;
      }
      var item := AddItem(title, subtitle, None, None, false, None, Some(WarningIcon(icon)), None,
                          None, None, None, None, None);
      r := Some(item);
    }

    /** The `session_id` property: the stored id, or else `uuid` (standing
        for `uuid4().hex`), which is stored and set as a variable. */
    method SessionId(uuid: string) returns (id: string)
      modifies this`sessionId, this`variables
      ensures old(sessionId) != "" ==> id == old(sessionId) && sessionId == old(sessionId) && variables == old(variables)
      ensures old(sessionId) == "" ==> id == uuid && sessionId == uuid
      ensures old(sessionId) == "" ==> variables == old(variables)[SESSION_VAR := String(uuid)]
    {
      if sessionId == "" {
        sessionId := uuid;
        SetVar(SESSION_VAR, String(sessionId));
      }
      id := sessionId;
    }

    /** `_mk_session_name(name)`, which reads `session_id`. */
    method MkSessionName(uuid: string, name: string) returns (r: string)
      modifies this`sessionId, this`variables
      ensures old(sessionId) != "" ==> sessionId == old(sessionId) && variables == old(variables)
      ensures old(sessionId) == "" ==> sessionId == uuid
      ensures old(sessionId) == "" ==> variables == old(variables)[SESSION_VAR := String(uuid)]
      ensures r == SessionName(sessionId, name)
    {
      var id := SessionId(uuid);
      r := SessionName(id, name);
    }
  }
}

=== FILE: wrappers.dfy ===
/** Option and Result, the shapes every module uses for Python's `None`
    returns and raised exceptions. */
module Wrappers {

  datatype Option<+T> = None | Some(value: T)

  /** `Err` carries the name of the exception Python raises and its message. */
  datatype Result<+T> = Ok(value: T) | Err(error: Error)

  datatype Error = Error(kind: string, message: string)

  const ValueError := "ValueError"
  const KeyError := "KeyError"
  const TypeError := "TypeError"
  const AttributeError := "AttributeError"
}
